=== FILE: README.md ===
# Test-data generator model

A Dafny model of `TestDataGenerator`, the fixture generator of a TeamCity API
test framework, together with proofs about it. Given a model class, the
generator builds a default instance. It then walks the declared fields in
order and fills each one under a priority policy:

1. `@Optional` skips the field.
2. Otherwise, `@Parameterizable` takes the head caller parameter, if one is left.
3. Otherwise, `@Random` gives a `String` field a random string.
4. Otherwise, a `BaseModel` field reuses an instance from the registry or is generated recursively.
5. Otherwise, a `List` of a model class becomes a one-element list.

The aggregate `generate()` builds a `TestData`. It generates each of its model
fields in order and adds each one to a registry, so later fields can share
those instances.

Reflection is replaced by an explicit schema. The schema maps a model class
name to its ordered field descriptors. Each descriptor holds a name, a set of
annotations and a declared type. The declared type is `String`, a model
class, `List` with an element type, or any other class. A class missing from
the schema has no usable no-argument constructor. Reference identity is made
explicit with a `World`: every constructed instance gets a fresh `Id` and is
stored in a map, so "the same instance" means "the same `Id`". Random strings
come from a function `random: nat -> string` in the environment, and the k-th
draw is `random(k)`. The model assumes nothing about their content.

Files:
- `model.dfy` (module `Model`) holds the schema, values, instances, the world and errors. It also defines `Env`, whose `Valid` holds when a rank on classes drops along every field that generation recurses through, so generation terminates.
- `registry.dfy` (module `Registry`) holds the reuse lookup, `findFirst` by exact runtime class, and its stability lemmas.
- `generator.dfy` (module `Generator`) holds `Resolve` (the per-field policy), `Populate` (the field loop), `Generate` (`generate(generatedModels, generatorClass, parameters...)`) and `GenerateFresh` (the overload without a registry).
- `generator_props.dfy` (module `GeneratorProps`) holds positional binding of parameters, the outcome of every field, the cursor copy that nested calls get, when generation succeeds, and surplus parameters.
- `reuse.dfy` (module `Reuse`) covers calls without parameters. Every instance such a call creates, at any depth, serves its by-type model fields from the registry and holds no parameter.
- `aggregate.dfy` (module `Aggregate`) holds `generate()` for `TestData` and reuse by identity, one level deep and at any depth.
- `scenarios.dfy` (module `Scenarios`) holds concrete schemas and what generation does on them.

Points where the code, not its comments, decides the model:
- Each call keeps its own parameter cursor. A nested call gets a copy of the current one (`finalParameters`). What the nested call consumes never advances the caller's cursor, so one parameter can be bound twice, by a nested model and by its owner. `Scenarios.NestedAndOwnerBindSameParameter` proves this on a concrete schema.
- The reuse lookup uses the field's declared type. For a `List` field that type is the `List` interface, which no instance's class equals. So list elements are always freshly generated, even though the comment above `generate` promises reuse for lists as well.
- Only the aggregate loop appends to the registry. It appends every model field it generates, so a `TestData` with two fields of the same class gets two distinct instances, and both go into the registry.
- More parameters than `@Parameterizable` fields is not always harmless. The surplus stays on the cursor, and nested calls receive a copy of it. A nested slot field then takes the surplus, and it fails if the class does not match. `Scenarios.SurplusParameterFailsNested` shows a call that succeeds with one parameter and fails with two.

## Model

| member | source | states |
|---|---|---|
| Registry.FirstMatch | src/main/java/com/example/teamcity/api/generators/TestDataGenerator.java:79-80 | The result is the first index at or after `from` whose instance has exactly class `c`, and no index before it has that class. `None` means no entry from `from` on has that class. |
| Registry.Lookup | src/main/java/com/example/teamcity/api/generators/TestDataGenerator.java:79-80 | It returns the registered instance itself, with no copy made. That instance is the first entry whose runtime class equals the given class. The result is `None` exactly when no entry has that class. |
| Registry.ListNeverReused | src/main/java/com/example/teamcity/api/generators/TestDataGenerator.java:79-80 | Lookup by a `List` field's declared type never finds anything, whatever the registry holds. |
| Registry.LookupStable | src/main/java/com/example/teamcity/api/generators/TestDataGenerator.java:79-80 | Generation only adds instances, so the registry gives the same answer before and after any generation. |
| Registry.LookupAppend | src/main/java/com/example/teamcity/api/generators/TestDataGenerator.java:131 | Appending an instance to the registry never changes an answer the registry already gave. Otherwise the lookup returns the new instance exactly when its class matches. |
| Generator.Resolve | src/main/java/com/example/teamcity/api/generators/TestDataGenerator.java:76-109 | The five rules in priority order. `@Optional` gives the default and changes nothing else. With a parameter left, a slot field takes the head and only the head is consumed. A mismatched parameter fails. `@Random` writes a random string only into `String` fields, and other types keep their default. A model field gets the registry's instance, or else a new instance of its class. A list field gets a one-element list holding a new instance. Only a consumed parameter advances the cursor. |
| Generator.Populate | src/main/java/com/example/teamcity/api/generators/TestDataGenerator.java:72-112 | The loop yields one value per declared field and keeps the values already computed. The world only grows. Every instance it creates refers only to registry entries or to instances created in the same loop. |
| Generator.Generate | src/main/java/com/example/teamcity/api/generators/TestDataGenerator.java:65-119 | A class that cannot be default-constructed fails with no instance. Otherwise the new instance gets the next fresh identity, has the requested class and one value per declared field, and leaves every earlier instance unchanged. |
| Generator.GenerateFresh | src/main/java/com/example/teamcity/api/generators/TestDataGenerator.java:142-144 | The overload with an empty registry. Everything the new instance refers to was created by this call. |
| GeneratorProps.PopulateSpec | src/main/java/com/example/teamcity/api/generators/TestDataGenerator.java:83-85 | With the cursor a call holds at field `i`, every later field gets its `FieldOutcome`. The cursor left at the end is the parameters minus one per slot field, so parameters beyond the number of slot fields are never consumed. |
| GeneratorProps.GenerateSpec | src/main/java/com/example/teamcity/api/generators/TestDataGenerator.java:45-56 | Every field of a generated instance is as `FieldOutcome` describes. `@Optional` fields keep their default. The slot field with `n` slot fields before it holds parameter `n` while parameters last, and no other field holds a parameter. After that come `@Random` strings, registry reuse of the exact class, a fresh instance, or a one-element list of a fresh instance. Any other field keeps its default. |
| GeneratorProps.SlotGetsParameter | src/main/java/com/example/teamcity/api/generators/TestDataGenerator.java:83-85 | Positional binding. When enough parameters were passed, the slot field with `n` slot fields before it receives exactly parameter `n`. |
| GeneratorProps.NestedGetsCursorCopy | src/main/java/com/example/teamcity/api/generators/TestDataGenerator.java:94-97 | A model or list field not served from the registry is generated with the current cursor and the same registry. The caller's cursor after the field is the one it held before. |
| GeneratorProps.PopulateNested | src/main/java/com/example/teamcity/api/generators/TestDataGenerator.java:104-106 | Each nested field of the loop holds an instance generated with exactly the cursor the owner holds at that field. That instance is still intact at the end of the loop. |
| GeneratorProps.GenerateNested | src/main/java/com/example/teamcity/api/generators/TestDataGenerator.java:95-97 | `PopulateNested` lifted to a whole `generate` call. Nested field `j` was generated with the parameters the slot fields before `j` left. |
| GeneratorProps.GenerateOk | src/main/java/com/example/teamcity/api/generators/TestDataGenerator.java:114-117 | Generation succeeds when every reachable class is constructible, no list element type is unresolvable, and every parameter fits every slot field. These are the only failure causes. |
| GeneratorProps.ExcessParamsIgnored | src/main/java/com/example/teamcity/api/generators/TestDataGenerator.java:45-49 | For a class without nested models, extra parameters beyond the number of slot fields change neither the outcome nor the instance. |
| GeneratorProps.IndependentCallsShareNothing | src/main/java/com/example/teamcity/api/generators/TestDataGenerator.java:142-144 | Two top-level calls through the overload without a registry share nothing. No instance created by the second call refers to anything created by the first. |
| Aggregate.ComposeFrom | src/main/java/com/example/teamcity/api/generators/TestDataGenerator.java:126-134 | The `TestData` field loop. Each model field holds a new instance of its declared class. Instances are allocated in declaration order, so they are pairwise distinct. Non-model fields keep their default. |
| Aggregate.GenerateTestData | src/main/java/com/example/teamcity/api/generators/TestDataGenerator.java:121-138 | An unconstructible `TestData` fails. Otherwise every model field holds a distinct new instance of its declared class, and every other field is untouched. |
| Aggregate.GenerateTestDataOk | src/main/java/com/example/teamcity/api/generators/TestDataGenerator.java:121-138 | `generate()` succeeds when three things hold. Every class named by a `TestData` model field is constructible. Every class reachable by type is constructible. No list field resolved by type has an element type that is not a class. Fields that are `@Optional` or `@Random`, and `TestData`'s non-model fields, are never generated, so they impose nothing. Parameters cannot mismatch, because none are passed. |
| Aggregate.AggregateSharesEarlierInstance | src/main/java/com/example/teamcity/api/generators/TestDataGenerator.java:58-63 | Let field `a` be the first `TestData` field of class `x`. If a later field's class has a field of class `x` that resolves by type, that nested field holds the very instance stored in field `a`. |
| Reuse.GenerateReuses | src/main/java/com/example/teamcity/api/generators/TestDataGenerator.java:94-106 | Take a call with no parameters. Every instance it creates, however deeply nested, holds no parameter. Each of its by-type model fields whose class is registered holds the first registered instance of that class, because every nested call receives the same `generatedModels`. |
| Aggregate.AggregateSharesAtAnyDepth | src/main/java/com/example/teamcity/api/generators/TestDataGenerator.java:58-63 | Let field `a` be the first `TestData` field of class `x`. Every instance created for a later model field, or after it, shares field `a`'s instance, however deeply it is nested: each of its by-type fields of class `x` holds that instance. |
| Aggregate.AggregateBindsNoParameter | src/main/java/com/example/teamcity/api/generators/TestDataGenerator.java:129 | `generate()` passes no parameters, so no instance it creates, at any depth, holds a caller parameter. |
| Scenarios.OptionalBackReference | src/main/java/com/example/teamcity/api/generators/TestDataGenerator.java:76 | A class whose `@Optional` field refers back to its own class is admitted and generates. The back-reference keeps its default, and the `@Random` name gets a string. |
| Scenarios.SurplusParameterFailsNested | src/main/java/com/example/teamcity/api/generators/TestDataGenerator.java:83-97 | The owner has one slot, a `String`, and its nested model has an `Integer` slot. With the single parameter "a", generation succeeds. With "a" and "b", the surplus "b" is handed to the nested model, whose slot rejects it, so the whole call fails. |
| Scenarios.BuildTypeSharesProject | src/main/java/com/example/teamcity/api/generators/TestDataGenerator.java:128-131 | Take a `TestData` with a project and then a build type. `generate()` succeeds, the two instances are distinct, and `buildType.project` is the aggregate's project itself. |
| Scenarios.NestedAndOwnerBindSameParameter | src/main/java/com/example/teamcity/api/generators/TestDataGenerator.java:83-97 | With the single parameter "x", a nested model's slot field and its owner's later slot field both receive "x". The nested call consumes its own copy of the cursor. |

## Left out

- Reflection mechanics are replaced by the explicit ordered schema. These include the field order of `getDeclaredFields`, the `setAccessible` toggling, and class loading.
- `RandomData.getString()` is not part of this model. Random strings are the opaque draws `random(k)`, and nothing is claimed about their length, alphabet or variance.
- Assignability of a parameter to a field is an exact class match: a `String` into a `String` field, or a value of class `C` into a field declared as `C`. Subtyping, boxing, `null` and model instances passed as parameters are not modelled. A mismatch is the generic failure `ParamMismatch`.
- A field declared as a concrete `List` implementation (such as `ArrayList`) is not modelled. `ListType` means a field declared as `List`.
- Generator.Generate: it does not model schemas with a cycle through fields that reach the type rules, meaning model or list-of-model fields that are neither `@Optional` nor `@Random`. The generator members require `Env.Valid`, a rank that drops along exactly those fields, so that every generation in the model terminates.
  - A cycle made only of list fields recurses without bound in the source when no parameter is left at a `@Parameterizable` field on the cycle, because list elements are never reused.
  - A cycle that passes through a model field recurses without bound unless the caller's `generatedModels` already holds an instance of that field's class, or a parameter is left at a `@Parameterizable` field on the cycle. In the first case the lookup at lines 79-80 ends the recursion, and the source returns normally.
  - A `@Parameterizable` field on a cycle, reached with a parameter left, takes that parameter at lines 83-84 instead of recursing. A parameter of the right class ends the recursion normally. A mismatched one fails at line 84 (`field.set`), as with `L{@Parameterizable List<L> items}` generated with the single parameter `"s"`.
  - All such parameter-terminated and registry-terminated calls are excluded by `Env.Valid` along with the divergent ones, since its rank must drop along every field that is neither `@Optional` nor `@Random`.
  - Cycles through `@Optional` or `@Random` fields are admitted, because generation never follows them (`Scenarios.OptionalBackReference`).
- The kinds of exception are not modelled. All failures (`InstantiationException`, `NoSuchMethodException`, the wrapping `IllegalStateException`, `IllegalArgumentException` from `field.set`, and `ClassCastException` on an element type that is not a class) become one `Err` with no instance returned.
- GeneratorProps.ExcessParamsIgnored: it is stated only for classes without nested models, because the property is false in general. Surplus parameters reach nested calls through the cursor copy. There they can be bound, and a nested slot of another class can make the whole call fail (`Scenarios.SurplusParameterFailsNested`).
- GeneratorProps.GenerateOk: it gives a sufficient condition for success rather than an exact one. Every parameter must fit every slot field of the schema, and `Closed` covers every class of the schema, not only the classes reachable from the generated one.
- Aggregate.GenerateTestDataOk: it gives a sufficient condition for success rather than an exact one. `Closed` covers every class of the schema, not only the classes reachable from `TestData`'s model fields.
- `Specifications.java` (request specifications), `CheckedBase.java` (HTTP CRUD with status assertions) and `Config.java` (property-file loading) are not part of this model. They are transport and configuration plumbing around the generator.

=== FILE: aggregate.dfy ===
/** The aggregate generator `generate()`: builds a `TestData` by generating each
    of its model fields in declaration order, with no parameters, and appending
    each result to a registry that later fields' nested models reuse.
 */
module Aggregate {
  import opened Model
  import opened Registry
  import opened Generator
  import opened GeneratorProps
  import opened Reuse

  /** The aggregate: one value per declared field of the `TestData` class. */
  datatype TestData = TestData(fields: seq<Value>)

  /** Progress of the field loop: values so far, the registry, the world. */
  datatype Composed = Composed(fields: seq<Value>, reg: seq<Id>, world: World)

  datatype Aggregated = Aggregated(data: TestData, world: World)

  /** A model field of the aggregate holds a new instance of its declared class
      (allocated no earlier than `w`); any other field is left untouched. */
  predicate AggregateField(k: FieldType, v: Value, w: World, wf: World) {
    if k.ModelType? then v.Ref? && w.next <= v.id && v.id in wf.objs && wf.objs[v.id].cls == k.model
    else v == Default
  }

  /** The field loop of `generate()` from field `i` on. Annotations on the
      aggregate's own fields play no part: only the declared type matters. */
  function ComposeFrom(env: Env, fs: seq<Field>, i: nat, acc: seq<Value>, reg: seq<Id>, w: World): (r: Result<Composed>)
    requires env.Valid() && i <= |fs| && |acc| == i && WellFormed(w) && InWorld(reg, w)
    ensures r.Ok? ==>
      && |r.value.fields| == |fs|
      && r.value.fields[..i] == acc
      && WellFormed(r.value.world)
      && Extends(w, r.value.world)
    ensures r.Ok? ==> forall j | i <= j < |fs| :: AggregateField(fs[j].kind, r.value.fields[j], w, r.value.world)
    ensures r.Ok? ==> forall j | i <= j < |fs| && fs[j].kind.ModelType? :: r.value.fields[j].Ref? && r.value.fields[j].id < r.value.world.next
    // Each model field gets its own instance, allocated in declaration order.
    ensures r.Ok? ==> forall a, b | i <= a < b < |fs| && fs[a].kind.ModelType? && fs[b].kind.ModelType? ::
      r.value.fields[a].Ref? && r.value.fields[b].Ref? && r.value.fields[a].id < r.value.fields[b].id
    decreases |fs| - i
  {
    if i == |fs| then
      Ok(Composed(acc, reg, w))
    else
      match fs[i].kind
      case ModelType(u) =>
        (match Generate(env, reg, u, [], w)
         case Err(e) => Err(e)
         case Ok(b) =>
           LookupAppend(reg, b.id, b.world, ModelClass(u));
           LookupStable(reg, w, b.world, ModelClass(u));
           var r := ComposeFrom(env, fs, i + 1, acc + [Ref(b.id)], reg + [b.id], b.world);
           if r.Ok? then
             ComposeStepFacts(fs, i, acc, Ref(b.id), w, b.world, r.value);
             r
           else r)
      case _ =>
        var r := ComposeFrom(env, fs, i + 1, acc + [Default], reg, w);
        if r.Ok? then
          ComposeStepFacts(fs, i, acc, Default, w, w, r.value);
          r
        else r
  }

  lemma ComposeStepFacts(fs: seq<Field>, i: nat, acc: seq<Value>, v: Value, w: World, w': World, c: Composed)
    requires i < |fs| && |acc| == i && |c.fields| == |fs| && c.fields[..i + 1] == acc + [v]
    requires Extends(w, w') && Extends(w', c.world) && WellFormed(c.world)
    requires AggregateField(fs[i].kind, v, w, w')
    requires fs[i].kind.ModelType? ==> v.id < w'.next
    requires forall j | i + 1 <= j < |fs| :: AggregateField(fs[j].kind, c.fields[j], w', c.world)
    requires forall j | i + 1 <= j < |fs| && fs[j].kind.ModelType? :: c.fields[j].Ref? && c.fields[j].id < c.world.next
    requires forall a, b | i + 1 <= a < b < |fs| && fs[a].kind.ModelType? && fs[b].kind.ModelType? ::
      c.fields[a].Ref? && c.fields[b].Ref? && c.fields[a].id < c.fields[b].id
    ensures c.fields[..i] == acc && c.fields[i] == v && Extends(w, c.world)
    ensures forall j | i <= j < |fs| :: AggregateField(fs[j].kind, c.fields[j], w, c.world)
    ensures forall j | i <= j < |fs| && fs[j].kind.ModelType? :: c.fields[j].Ref? && c.fields[j].id < c.world.next
    ensures forall a, b | i <= a < b < |fs| && fs[a].kind.ModelType? && fs[b].kind.ModelType? ::
      c.fields[a].Ref? && c.fields[b].Ref? && c.fields[a].id < c.fields[b].id
  {
    assert c.fields[..i] == (c.fields[..i + 1])[..i];
    assert c.fields[i] == (c.fields[..i + 1])[i];
    if fs[i].kind.ModelType? {
      assert w'.objs[v.id] == c.world.objs[v.id];
    }
  }

  /** `generate()`: a `TestData` class `td` that cannot be constructed fails;
      otherwise every model field holds a distinct new instance of its declared
      class and every other field keeps its default. */
  function GenerateTestData(env: Env, td: TypeName, w: World): (r: Result<Aggregated>)
    requires env.Valid() && WellFormed(w)
    ensures td !in env.schema ==> r == Err(CannotConstruct(td))
    ensures r.Ok? ==> td in env.schema && |r.value.data.fields| == |env.schema[td]|
    ensures r.Ok? ==> WellFormed(r.value.world) && Extends(w, r.value.world)
    ensures r.Ok? ==> forall j | 0 <= j < |env.schema[td]| ::
      AggregateField(env.schema[td][j].kind, r.value.data.fields[j], w, r.value.world)
    ensures r.Ok? ==> forall a, b | 0 <= a < b < |env.schema[td]|
                        && env.schema[td][a].kind.ModelType? && env.schema[td][b].kind.ModelType? ::
      r.value.data.fields[a] != r.value.data.fields[b]
  {
    if td !in env.schema then
      Err(CannotConstruct(td))
    else
      match ComposeFrom(env, env.schema[td], 0, [], [], w)
      case Err(e) => Err(e)
      case Ok(c) => Ok(Aggregated(TestData(c.fields), c.world))
  }

  lemma {:induction false} ComposeOk(env: Env, fs: seq<Field>, i: nat, acc: seq<Value>, reg: seq<Id>, w: World)
    requires env.Valid() && i <= |fs| && |acc| == i && WellFormed(w) && InWorld(reg, w)
    requires Closed(env.schema)
    requires forall j | 0 <= j < |fs| && fs[j].kind.ModelType? :: fs[j].kind.model in env.schema
    ensures ComposeFrom(env, fs, i, acc, reg, w).Ok?
    decreases |fs| - i
  {
    if i < |fs| {
      match fs[i].kind
      case ModelType(u) =>
        GenerateOk(env, reg, u, [], w);
        var b := Generate(env, reg, u, [], w).value;
        LookupAppend(reg, b.id, b.world, ModelClass(u));
        LookupStable(reg, w, b.world, ModelClass(u));
        ComposeOk(env, fs, i + 1, acc + [Ref(b.id)], reg + [b.id], b.world);
      case _ =>
        ComposeOk(env, fs, i + 1, acc + [Default], reg, w);
    }
  }

  /** With every class the aggregate's model fields name constructible, and
      every class reachable from them by type too, `generate()` succeeds. The
      aggregate's own annotations and non-model fields play no part. */
  lemma GenerateTestDataOk(env: Env, td: TypeName, w: World)
    requires env.Valid() && WellFormed(w) && Closed(env.schema) && td in env.schema
    requires forall j | 0 <= j < |env.schema[td]| && env.schema[td][j].kind.ModelType? ::
      env.schema[td][j].kind.model in env.schema
    ensures GenerateTestData(env, td, w).Ok?
  {
    ComposeOk(env, env.schema[td], 0, [], [], w);
  }

  /** Registry state the loop keeps for a class `x` first declared at field `a`:
      before field `a` no entry has class `x`; from then on the first entry of
      class `x` is the instance of field `a`. */
  predicate ServesFirst(fs: seq<Field>, i: nat, acc: seq<Value>, reg: seq<Id>, w: World, a: nat)
    requires InWorld(reg, w) && a < |fs| && fs[a].kind.ModelType? && |acc| == i
  {
    if i <= a then Lookup(reg, w, ModelClass(fs[a].kind.model)) == None
    else acc[a].Ref? && Lookup(reg, w, ModelClass(fs[a].kind.model)) == Some(acc[a].id)
  }

  /** The model class `x` is declared by a field of class `y` at index `q`
      that resolves by its type when no parameters are given. */
  predicate NestsByType(env: Env, y: TypeName, q: nat, x: TypeName) {
    && y in env.schema
    && q < |env.schema[y]|
    && env.schema[y][q].kind == ModelType(x)
    && Optional !in env.schema[y][q].tags
    && Random !in env.schema[y][q].tags
  }

  /** One model field of the loop: its generation succeeds and the loop goes on
      with the new instance appended to the values and to the registry. */
  lemma ComposeModelStep(env: Env, fs: seq<Field>, i: nat, acc: seq<Value>, reg: seq<Id>, w: World)
    requires env.Valid() && i < |fs| && |acc| == i && WellFormed(w) && InWorld(reg, w)
    requires ComposeFrom(env, fs, i, acc, reg, w).Ok? && fs[i].kind.ModelType?
    ensures var g := Generate(env, reg, fs[i].kind.model, [], w);
      && g.Ok?
      && InWorld(reg + [g.value.id], g.value.world)
      && ComposeFrom(env, fs, i, acc, reg, w)
         == ComposeFrom(env, fs, i + 1, acc + [Ref(g.value.id)], reg + [g.value.id], g.value.world)
  {
    var g := Generate(env, reg, fs[i].kind.model, [], w);
    LookupAppend(reg, g.value.id, g.value.world, ModelClass(fs[i].kind.model));
    LookupStable(reg, w, g.value.world, ModelClass(fs[i].kind.model));
  }

  /** At field `b` the nested field `q` of the new instance is served from the
      registry, and what the loop builds afterwards keeps it. */
  lemma ComposeReuseAt(env: Env, fs: seq<Field>, acc: seq<Value>, reg: seq<Id>, w: World, a: nat, b: nat, q: nat)
    requires env.Valid() && b < |fs| && |acc| == b && WellFormed(w) && InWorld(reg, w)
    requires ComposeFrom(env, fs, b, acc, reg, w).Ok?
    requires a < b && fs[a].kind.ModelType? && fs[b].kind.ModelType?
    requires NestsByType(env, fs[b].kind.model, q, fs[a].kind.model)
    requires ServesFirst(fs, b, acc, reg, w, a)
    ensures var c := ComposeFrom(env, fs, b, acc, reg, w).value;
      && c.fields[a].Ref? && c.fields[b].Ref?
      && c.fields[b].id in c.world.objs
      && q < |c.world.objs[c.fields[b].id].fields|
      && c.world.objs[c.fields[b].id].fields[q] == c.fields[a]
  {
    var x := fs[a].kind.model;
    var y := fs[b].kind.model;
    var c := ComposeFrom(env, fs, b, acc, reg, w).value;
    ComposeModelStep(env, fs, b, acc, reg, w);
    var g := Generate(env, reg, y, [], w).value;
    var acc' := acc + [Ref(g.id)];
    GenerateSpec(env, reg, y, [], w);
    var o := g.world.objs[g.id];
    assert FieldOutcome(reg, w, g.world, env.schema[y], [], q, o.fields[q]);
    assert o.fields[q] == Ref(acc[a].id);
    assert c.fields[..b + 1] == acc';
    assert c.fields[b] == acc'[b];
    assert c.fields[a] == acc'[a];
    assert c.world.objs[g.id] == o;
  }

  lemma {:induction false} ComposeReuse(env: Env, fs: seq<Field>, i: nat, acc: seq<Value>, reg: seq<Id>, w: World, a: nat, b: nat, q: nat)
    requires env.Valid() && i <= |fs| && |acc| == i && WellFormed(w) && InWorld(reg, w)
    requires ComposeFrom(env, fs, i, acc, reg, w).Ok?
    requires a < b < |fs| && i <= b && fs[a].kind.ModelType? && fs[b].kind.ModelType?
    requires forall k | 0 <= k < a :: fs[k].kind != fs[a].kind
    requires NestsByType(env, fs[b].kind.model, q, fs[a].kind.model)
    requires ServesFirst(fs, i, acc, reg, w, a)
    ensures var c := ComposeFrom(env, fs, i, acc, reg, w).value;
      && c.fields[a].Ref? && c.fields[b].Ref?
      && c.fields[b].id in c.world.objs
      && q < |c.world.objs[c.fields[b].id].fields|
      && c.world.objs[c.fields[b].id].fields[q] == c.fields[a]
    decreases |fs| - i
  {
    if i == b {
      ComposeReuseAt(env, fs, acc, reg, w, a, b, q);
    } else if fs[i].kind.ModelType? {
      var x := fs[a].kind.model;
      ComposeModelStep(env, fs, i, acc, reg, w);
      var g := Generate(env, reg, fs[i].kind.model, [], w).value;
      var acc' := acc + [Ref(g.id)];
      LookupAppend(reg, g.id, g.world, ModelClass(x));
      LookupStable(reg, w, g.world, ModelClass(x));
      if i < a {
        assert fs[i].kind != fs[a].kind;
      } else if i > a {
        assert acc'[a] == acc[a];
      }
      assert ServesFirst(fs, i + 1, acc', reg + [g.id], g.world, a);
      ComposeReuse(env, fs, i + 1, acc', reg + [g.id], g.world, a, b, q);
    } else {
      var acc' := acc + [Default];
      assert ComposeFrom(env, fs, i, acc, reg, w) == ComposeFrom(env, fs, i + 1, acc', reg, w);
      if i > a {
        assert acc'[a] == acc[a];
      }
      ComposeReuse(env, fs, i + 1, acc', reg, w, a, b, q);
    }
  }

  /** Reuse by identity: if `TestData` field `a` is the first of model class
      `x`, and the class of a later field `b` has a field `q` of class `x` that
      resolves by type, then that nested field holds the very instance stored
      in field `a`. */
  lemma AggregateSharesEarlierInstance(env: Env, td: TypeName, w: World, a: nat, b: nat, q: nat)
    requires env.Valid() && WellFormed(w) && GenerateTestData(env, td, w).Ok?
    requires td in env.schema
    requires var fs := env.schema[td];
      && a < b < |fs| && fs[a].kind.ModelType? && fs[b].kind.ModelType?
      && (forall k | 0 <= k < a :: fs[k].kind != fs[a].kind)
      && NestsByType(env, fs[b].kind.model, q, fs[a].kind.model)
    ensures var g := GenerateTestData(env, td, w).value;
      var d := g.data.fields;
      && d[a].Ref? && d[b].Ref? && d[b].id in g.world.objs
      && q < |g.world.objs[d[b].id].fields|
      && g.world.objs[d[b].id].fields[q] == d[a]
  {
    var fs := env.schema[td];
    assert ServesFirst(fs, 0, [], [], w, a);
    ComposeReuse(env, fs, 0, [], [], w, a, b, q);
  }

  /** Every instance the loop creates from field `i` on serves its by-type
      model fields from the registry the loop holds at field `i`, and holds no
      caller parameter. */
  lemma {:induction false} ComposeReuses(env: Env, fs: seq<Field>, i: nat, acc: seq<Value>, reg: seq<Id>, w: World)
    requires env.Valid() && i <= |fs| && |acc| == i && WellFormed(w) && InWorld(reg, w)
    requires ComposeFrom(env, fs, i, acc, reg, w).Ok?
    ensures CreatedReuse(env, reg, w, ComposeFrom(env, fs, i, acc, reg, w).value.world)
    decreases |fs| - i
  {
    if i < |fs| {
      if fs[i].kind.ModelType? {
        var u := fs[i].kind.model;
        ComposeModelStep(env, fs, i, acc, reg, w);
        var g := Generate(env, reg, u, [], w).value;
        GenerateReuses(env, reg, u, w);
        ComposeReuses(env, fs, i + 1, acc + [Ref(g.id)], reg + [g.id], g.world);
        var c := ComposeFrom(env, fs, i, acc, reg, w).value;
        LookupStable(reg, w, g.world, ModelClass(u));
        forall id | id in c.world.objs && id !in w.objs ensures InstanceReuses(env, reg, w, c.world.objs[id]) {
          if id in g.world.objs {
            assert c.world.objs[id] == g.world.objs[id];
          } else {
            InstanceReusesPrefix(env, reg, g.id, g.world, c.world.objs[id]);
            InstanceReusesEarlier(env, reg, w, g.world, c.world.objs[id]);
          }
        }
      } else {
        assert ComposeFrom(env, fs, i, acc, reg, w) == ComposeFrom(env, fs, i + 1, acc + [Default], reg, w);
        ComposeReuses(env, fs, i + 1, acc + [Default], reg, w);
      }
    }
  }

  /** Every by-type field of class `x` of instance `o` holds `v`. */
  predicate SharesWith(env: Env, o: Instance, x: TypeName, v: Value) {
    && o.cls in env.schema
    && |o.fields| == |env.schema[o.cls]|
    && forall q | 0 <= q < |o.fields| && env.schema[o.cls][q].kind == ModelType(x)
                 && Optional !in env.schema[o.cls][q].tags && Random !in env.schema[o.cls][q].tags ::
         o.fields[q] == v
  }

  /** At field `b` every instance created from then on shares field `a`'s instance. */
  lemma ComposeDeepAt(env: Env, fs: seq<Field>, acc: seq<Value>, reg: seq<Id>, w: World, a: nat, b: nat)
    requires env.Valid() && b < |fs| && |acc| == b && WellFormed(w) && InWorld(reg, w)
    requires ComposeFrom(env, fs, b, acc, reg, w).Ok?
    requires a < b && fs[a].kind.ModelType? && fs[b].kind.ModelType?
    requires ServesFirst(fs, b, acc, reg, w, a)
    ensures var c := ComposeFrom(env, fs, b, acc, reg, w).value;
      && c.fields[a].Ref? && c.fields[b].Ref?
      && forall id | id in c.world.objs && c.fields[b].id <= id ::
           SharesWith(env, c.world.objs[id], fs[a].kind.model, c.fields[a])
  {
    var x := fs[a].kind.model;
    var c := ComposeFrom(env, fs, b, acc, reg, w).value;
    ComposeModelStep(env, fs, b, acc, reg, w);
    var g := Generate(env, reg, fs[b].kind.model, [], w).value;
    ComposeReuses(env, fs, b, acc, reg, w);
    assert c.fields[..b + 1] == acc + [Ref(g.id)];
    assert c.fields[b] == (c.fields[..b + 1])[b];
    assert c.fields[a] == (c.fields[..b + 1])[a];
    forall id | id in c.world.objs && c.fields[b].id <= id
      ensures SharesWith(env, c.world.objs[id], x, c.fields[a])
    {
      assert id !in w.objs;
      assert InstanceReuses(env, reg, w, c.world.objs[id]);
    }
  }

  lemma {:induction false} ComposeDeep(env: Env, fs: seq<Field>, i: nat, acc: seq<Value>, reg: seq<Id>, w: World, a: nat, b: nat)
    requires env.Valid() && i <= |fs| && |acc| == i && WellFormed(w) && InWorld(reg, w)
    requires ComposeFrom(env, fs, i, acc, reg, w).Ok?
    requires a < b < |fs| && i <= b && fs[a].kind.ModelType? && fs[b].kind.ModelType?
    requires forall k | 0 <= k < a :: fs[k].kind != fs[a].kind
    requires ServesFirst(fs, i, acc, reg, w, a)
    ensures var c := ComposeFrom(env, fs, i, acc, reg, w).value;
      && c.fields[a].Ref? && c.fields[b].Ref?
      && forall id | id in c.world.objs && c.fields[b].id <= id ::
           SharesWith(env, c.world.objs[id], fs[a].kind.model, c.fields[a])
    decreases |fs| - i
  {
    if i == b {
      ComposeDeepAt(env, fs, acc, reg, w, a, b);
    } else if fs[i].kind.ModelType? {
      var x := fs[a].kind.model;
      ComposeModelStep(env, fs, i, acc, reg, w);
      var g := Generate(env, reg, fs[i].kind.model, [], w).value;
      var acc' := acc + [Ref(g.id)];
      LookupAppend(reg, g.id, g.world, ModelClass(x));
      LookupStable(reg, w, g.world, ModelClass(x));
      if i < a {
        assert fs[i].kind != fs[a].kind;
      } else if i > a {
        assert acc'[a] == acc[a];
      }
      assert ServesFirst(fs, i + 1, acc', reg + [g.id], g.world, a);
      ComposeDeep(env, fs, i + 1, acc', reg + [g.id], g.world, a, b);
    } else {
      var acc' := acc + [Default];
      assert ComposeFrom(env, fs, i, acc, reg, w) == ComposeFrom(env, fs, i + 1, acc', reg, w);
      if i > a {
        assert acc'[a] == acc[a];
      }
      ComposeDeep(env, fs, i + 1, acc', reg, w, a, b);
    }
  }

  /** Reuse at any depth: if `TestData` field `a` is the first of model class
      `x`, then every instance created while generating a later model field
      `b`, or after it, however deeply nested, holds field `a`'s instance in
      each of its fields of class `x` that resolves by type. */
  lemma AggregateSharesAtAnyDepth(env: Env, td: TypeName, w: World, a: nat, b: nat)
    requires env.Valid() && WellFormed(w) && GenerateTestData(env, td, w).Ok?
    requires td in env.schema
    requires var fs := env.schema[td];
      && a < b < |fs| && fs[a].kind.ModelType? && fs[b].kind.ModelType?
      && (forall k | 0 <= k < a :: fs[k].kind != fs[a].kind)
    ensures var g := GenerateTestData(env, td, w).value;
      var d := g.data.fields;
      && d[a].Ref? && d[b].Ref?
      && forall id | id in g.world.objs && d[b].id <= id ::
           SharesWith(env, g.world.objs[id], env.schema[td][a].kind.model, d[a])
  {
    var fs := env.schema[td];
    assert ServesFirst(fs, 0, [], [], w, a);
    ComposeDeep(env, fs, 0, [], [], w, a, b);
  }

  /** `generate()` passes no parameters: no instance it creates, at any depth,
      holds a caller parameter. */
  lemma AggregateBindsNoParameter(env: Env, td: TypeName, w: World)
    requires env.Valid() && WellFormed(w) && GenerateTestData(env, td, w).Ok?
    ensures var g := GenerateTestData(env, td, w).value;
      forall id, q | id in g.world.objs && id !in w.objs && 0 <= q < |g.world.objs[id].fields| ::
        !g.world.objs[id].fields[q].Given?
  {
    ComposeReuses(env, env.schema[td], 0, [], [], w);
  }
}

=== FILE: generator.dfy ===
/** The generator engine: `generate(generatedModels, generatorClass, parameters...)`
    and its empty-registry overload. A call allocates a new default instance of
    the class, resolves each declared field in order under the five-rule
    policy, and recurses for nested models with its own copy of the
    parameter cursor.
 */
module Generator {
  import opened Model
  import opened Registry

  /** A field that takes the head parameter when one is left: annotated
      `@Parameterizable` and not `@Optional`. */
  predicate IsSlot(f: Field) {
    Optional !in f.tags && Parameterizable in f.tags
  }

  /** Rule 2 applies: the field is a slot and a parameter is left. */
  predicate Consumes(f: Field, params: seq<Param>) {
    IsSlot(f) && |params| > 0
  }

  /** Rules 1 to 3 do not apply, so the declared type decides. */
  predicate ByType(f: Field, params: seq<Param>) {
    Optional !in f.tags && !Consumes(f, params) && Random !in f.tags
  }

  /** An identity `id` mentioned by a field value is either one of the
      registered instances or was allocated at or after `lo`. */
  predicate RefersWithin(v: Value, lo: Id, reg: seq<Id>) {
    match v
    case Ref(id) => lo <= id || id in reg
    case RefList(ids) => forall id | id in ids :: lo <= id || id in reg
    case _ => true
  }

  lemma RefersWithinLower(v: Value, lo: Id, lo': Id, reg: seq<Id>)
    requires lo' <= lo && RefersWithin(v, lo, reg)
    ensures RefersWithin(v, lo', reg)
  {
  }

  /** Every instance in `w'` that was not in `w` was allocated since `w`, and
      refers only to registry entries or to instances allocated since `w`:
      generation shares nothing with earlier work except through the registry. */
  predicate CreatedSince(w: World, w': World, reg: seq<Id>) {
    forall id | id in w'.objs && id !in w.objs ::
      && w.next <= id < w'.next
      && forall k | 0 <= k < |w'.objs[id].fields| :: RefersWithin(w'.objs[id].fields[k], w.next, reg)
  }

  lemma CreatedSinceTrans(w1: World, w2: World, w3: World, reg: seq<Id>)
    requires Extends(w1, w2) && Extends(w2, w3)
    requires CreatedSince(w1, w2, reg) && CreatedSince(w2, w3, reg)
    ensures CreatedSince(w1, w3, reg)
  {
    forall id | id in w3.objs && id !in w1.objs
      ensures w1.next <= id < w3.next
      ensures forall k | 0 <= k < |w3.objs[id].fields| :: RefersWithin(w3.objs[id].fields[k], w1.next, reg)
    {
      var fs := w3.objs[id].fields;
      forall k | 0 <= k < |fs| ensures RefersWithin(fs[k], w1.next, reg) {
        if id in w2.objs {
          assert fs == w2.objs[id].fields;
        } else {
          RefersWithinLower(fs[k], w2.next, w1.next, reg);
        }
      }
    }
  }

  /** Outcome of resolving one field: its value, the caller's cursor after it,
      and the world after any nested generation or random draw. */
  datatype Step = Step(value: Value, params: seq<Param>, world: World)

  /** Outcome of populating the fields of one instance. */
  datatype Filled = Filled(fields: seq<Value>, rest: seq<Param>, world: World)

  /** A generated instance and the world that holds it. */
  datatype Built = Built(id: Id, world: World)

  /** The per-field policy for field `i` of class `t`, with the cursor `params`
      and the registry `reg`. First match wins: `@Optional` skips; a slot with a
      parameter left takes the head; `@Random` writes a random string into a
      `String` field and nothing into any other; a model field takes the first
      registered instance of exactly its class, or a freshly generated one;
      a list of models gets one freshly generated element. */
  function Resolve(env: Env, reg: seq<Id>, t: TypeName, i: nat, params: seq<Param>, w: World): (r: Result<Step>)
    requires env.Valid() && t in env.schema && i < |env.schema[t]|
    requires WellFormed(w) && InWorld(reg, w)
    ensures r.Ok? ==> WellFormed(r.value.world) && Extends(w, r.value.world)
    ensures r.Ok? ==> CreatedSince(w, r.value.world, reg) && RefersWithin(r.value.value, w.next, reg)
    // Rule 1: skipped field, nothing else changes.
    ensures Optional in env.schema[t][i].tags ==> r == Ok(Step(Default, params, w))
    // Rule 2: the head parameter, and only it, is consumed.
    ensures Consumes(env.schema[t][i], params) ==>
      && (r.Ok? <==> Accepts(env.schema[t][i].kind, params[0]))
      && (r.Ok? ==> r.value == Step(Given(params[0]), params[1..], w))
    ensures r.Ok? && r.value.value.Given? ==> Consumes(env.schema[t][i], params)
    ensures r.Ok? && !Consumes(env.schema[t][i], params) ==> r.value.params == params
    // Rule 3: a random string for a String field, nothing for any other type.
    ensures var f := env.schema[t][i];
      Optional !in f.tags && !Consumes(f, params) && Random in f.tags ==>
        && r.Ok?
        && (f.kind == StringType ==> r.value.value == Str(env.random(w.draws)) && r.value.world.draws == w.draws + 1)
        && (f.kind != StringType ==> r.value == Step(Default, params, w))
    // Rule 4: reuse of the first registered instance of exactly the field's class.
    ensures var f := env.schema[t][i];
      ByType(f, params) && f.kind.ModelType? && Lookup(reg, w, ModelClass(f.kind.model)).Some? ==>
        r == Ok(Step(Ref(Lookup(reg, w, ModelClass(f.kind.model)).value), params, w))
    // Rules 4 and 5 without reuse: a new instance of the named model class.
    ensures var f := env.schema[t][i];
      r.Ok? && ByType(f, params) && f.kind.HoldsModel() && Lookup(reg, w, DeclaredClass(f.kind)).None? ==>
        && w.next !in w.objs
        && w.next in r.value.world.objs
        && r.value.world.objs[w.next].cls == f.kind.ModelName()
        && r.value.value == (if f.kind.ModelType? then Ref(w.next) else RefList([w.next]))
    // No rule applies: the field keeps its default.
    ensures var f := env.schema[t][i];
      ByType(f, params) && !f.kind.HoldsModel() && f.kind != ListType(ElemNotClass) ==>
        r == Ok(Step(Default, params, w))
    ensures var f := env.schema[t][i];
      ByType(f, params) && f.kind == ListType(ElemNotClass) ==> r == Err(UnresolvedElement(t, f.name))
    decreases env.Measure(t), 0
  {
    var f := env.schema[t][i];
    if Optional in f.tags then
      Ok(Step(Default, params, w))
    else if Parameterizable in f.tags && |params| > 0 then
      if Accepts(f.kind, params[0]) then Ok(Step(Given(params[0]), params[1..], w))
      else Err(ParamMismatch(t, f.name))
    else if Random in f.tags then
      if f.kind == StringType then Ok(Step(Str(env.random(w.draws)), params, w.(draws := w.draws + 1)))
      else Ok(Step(Default, params, w))
    else
      var reused := Lookup(reg, w, DeclaredClass(f.kind));
      match f.kind
      case ModelType(u) =>
        if reused.Some? then
          LookupFindsEntry(reg, w, DeclaredClass(f.kind));
          Ok(Step(Ref(reused.value), params, w))
        else
          assert env.RankDrops(t, f.kind);
          (match Generate(env, reg, u, params, w)
           case Err(e) => Err(e)
           case Ok(b) => Ok(Step(Ref(b.id), params, b.world)))
      case ListType(ElemModel(u)) =>
        if reused.Some? then
          LookupFindsEntry(reg, w, DeclaredClass(f.kind));
          Ok(Step(RefList([reused.value]), params, w))
        else
          assert env.RankDrops(t, f.kind);
          (match Generate(env, reg, u, params, w)
           case Err(e) => Err(e)
           case Ok(b) => Ok(Step(RefList([b.id]), params, b.world)))
      case ListType(ElemNotClass) =>
        Err(UnresolvedElement(t, f.name))
      case _ =>
        Ok(Step(Default, params, w))
  }

  /** The field loop of `generate`: resolves fields `i..` of class `t` in
      declaration order, threading the cursor and the world. */
  function Populate(env: Env, reg: seq<Id>, t: TypeName, i: nat, acc: seq<Value>, params: seq<Param>, w: World): (r: Result<Filled>)
    requires env.Valid() && t in env.schema && i <= |env.schema[t]| && |acc| == i
    requires WellFormed(w) && InWorld(reg, w)
    ensures r.Ok? ==> |r.value.fields| == |env.schema[t]| && r.value.fields[..i] == acc
    ensures r.Ok? ==> WellFormed(r.value.world) && Extends(w, r.value.world) && CreatedSince(w, r.value.world, reg)
    ensures r.Ok? ==> forall j | i <= j < |r.value.fields| :: RefersWithin(r.value.fields[j], w.next, reg)
    decreases env.Measure(t), 1, |env.schema[t]| - i
  {
    if i == |env.schema[t]| then
      Ok(Filled(acc, params, w))
    else
      match Resolve(env, reg, t, i, params, w)
      case Err(e) => Err(e)
      case Ok(s) =>
        var r := Populate(env, reg, t, i + 1, acc + [s.value], s.params, s.world);
        if r.Ok? then
          PopulateStepFacts(w, s, r.value, reg, i, acc);
          r
        else r
  }

  lemma PopulateStepFacts(w: World, s: Step, p: Filled, reg: seq<Id>, i: nat, acc: seq<Value>)
    requires |acc| == i && |p.fields| > i && p.fields[..i + 1] == acc + [s.value]
    requires Extends(w, s.world) && Extends(s.world, p.world)
    requires CreatedSince(w, s.world, reg) && CreatedSince(s.world, p.world, reg)
    requires RefersWithin(s.value, w.next, reg)
    requires forall j | i + 1 <= j < |p.fields| :: RefersWithin(p.fields[j], s.world.next, reg)
    ensures p.fields[..i] == acc
    ensures Extends(w, p.world) && CreatedSince(w, p.world, reg)
    ensures forall j | i <= j < |p.fields| :: RefersWithin(p.fields[j], w.next, reg)
  {
    assert p.fields[..i] == (p.fields[..i + 1])[..i];
    assert p.fields[i] == (p.fields[..i + 1])[i];
    CreatedSinceTrans(w, s.world, p.world, reg);
    forall j | i + 1 <= j < |p.fields| ensures RefersWithin(p.fields[j], w.next, reg) {
      RefersWithinLower(p.fields[j], s.world.next, w.next, reg);
    }
  }

  /** `generate(generatedModels, generatorClass, parameters...)`: a class that
      cannot be default-constructed fails; otherwise the new instance gets the
      next identity, its fields are resolved in order, and it is stored. On
      failure no instance is returned. */
  function Generate(env: Env, reg: seq<Id>, t: TypeName, params: seq<Param>, w: World): (r: Result<Built>)
    requires env.Valid() && WellFormed(w) && InWorld(reg, w)
    ensures t !in env.schema ==> r == Err(CannotConstruct(t))
    ensures r.Ok? ==>
      && t in env.schema
      && r.value.id == w.next
      && r.value.id in r.value.world.objs
      && r.value.world.objs[r.value.id].cls == t
      && |r.value.world.objs[r.value.id].fields| == |env.schema[t]|
    ensures r.Ok? ==> WellFormed(r.value.world) && Extends(w, r.value.world) && CreatedSince(w, r.value.world, reg)
    decreases env.Measure(t), 2
  {
    if t !in env.schema then
      Err(CannotConstruct(t))
    else
      var id := w.next;
      var w0 := w.(next := id + 1);
      match Populate(env, reg, t, 0, [], params, w0)
      case Err(e) => Err(e)
      case Ok(p) =>
        var w1 := p.world.(objs := p.world.objs[id := Instance(t, p.fields)]);
        GenerateStoreFacts(w, w0, p, w1, reg, t, id);
        Ok(Built(id, w1))
  }

  lemma GenerateStoreFacts(w: World, w0: World, p: Filled, w1: World, reg: seq<Id>, t: TypeName, id: Id)
    requires WellFormed(w) && id == w.next && w0 == w.(next := id + 1)
    requires WellFormed(p.world) && Extends(w0, p.world) && CreatedSince(w0, p.world, reg)
    requires forall j | 0 <= j < |p.fields| :: RefersWithin(p.fields[j], w0.next, reg)
    requires w1 == p.world.(objs := p.world.objs[id := Instance(t, p.fields)])
    ensures id !in p.world.objs
    ensures WellFormed(w1) && Extends(w, w1) && CreatedSince(w, w1, reg)
  {
    forall j | 0 <= j < |p.fields| ensures RefersWithin(p.fields[j], w.next, reg) {
      RefersWithinLower(p.fields[j], w0.next, w.next, reg);
    }
    forall x | x in p.world.objs && x !in w.objs
      ensures forall k | 0 <= k < |p.world.objs[x].fields| :: RefersWithin(p.world.objs[x].fields[k], w.next, reg)
    {
      forall k | 0 <= k < |p.world.objs[x].fields| ensures RefersWithin(p.world.objs[x].fields[k], w.next, reg) {
        RefersWithinLower(p.world.objs[x].fields[k], w0.next, w.next, reg);
      }
    }
  }

  /** The overload `generate(generatorClass, parameters...)`: an empty registry,
      so everything the new instance refers to was created by this call. */
  function GenerateFresh(env: Env, t: TypeName, params: seq<Param>, w: World): (r: Result<Built>)
    requires env.Valid() && WellFormed(w)
    ensures t !in env.schema ==> r == Err(CannotConstruct(t))
    ensures r.Ok? ==> r.value.id == w.next && r.value.id in r.value.world.objs && r.value.world.objs[r.value.id].cls == t
    ensures r.Ok? ==> WellFormed(r.value.world) && Extends(w, r.value.world) && CreatedSince(w, r.value.world, [])
  {
    Generate(env, [], t, params, w)
  }
}

=== FILE: generator_props.dfy ===
/** Properties of the generator engine: how parameters bind to fields by
    position, what each field of a generated instance holds, when generation
    succeeds, and that surplus parameters are left alone.
 */
module GeneratorProps {
  import opened Model
  import opened Registry
  import opened Generator

  function Min(a: nat, b: nat): nat {
    if a <= b then a else b
  }

  /** Number of slot fields (`@Parameterizable`, not `@Optional`) in `fs`. */
  function SlotCount(fs: seq<Field>): nat {
    if |fs| == 0 then 0
    else SlotCount(fs[..|fs| - 1]) + (if IsSlot(fs[|fs| - 1]) then 1 else 0)
  }

  lemma SlotCountStep(fs: seq<Field>, i: nat)
    requires i < |fs|
    ensures SlotCount(fs[..i + 1]) == SlotCount(fs[..i]) + (if IsSlot(fs[i]) then 1 else 0)
  {
    assert fs[..i + 1][..i] == fs[..i];
  }

  lemma {:induction false} SlotCountMono(fs: seq<Field>, i: nat, j: nat)
    requires i <= j <= |fs|
    ensures SlotCount(fs[..i]) <= SlotCount(fs[..j])
    decreases j - i
  {
    if i < j {
      SlotCountStep(fs, i);
      SlotCountMono(fs, i + 1, j);
    }
  }

  /** The cursor a call given `params` holds on reaching field `j` of `fs`:
      each slot field before `j` has taken one parameter while any were left. */
  function CursorAt(params: seq<Param>, fs: seq<Field>, j: nat): seq<Param>
    requires j <= |fs|
  {
    params[Min(|params|, SlotCount(fs[..j]))..]
  }

  /** What field `j` of an instance generated from `fs` with the parameters
      `params`, the registry `reg` and the starting world `w` holds (`wf` is the
      world after generation):
      - an `@Optional` field keeps its default;
      - the slot field with `n` slot fields before it holds parameter `n` when
        there is one, and no other field holds a parameter;
      - otherwise `@Random` gives a `String` field a random string and leaves any
        other field at its default;
      - otherwise the declared type decides (see `TypedOutcome`). */
  predicate FieldOutcome(reg: seq<Id>, w: World, wf: World, fs: seq<Field>, params: seq<Param>, j: nat, v: Value)
    requires InWorld(reg, w) && j < |fs|
  {
    var f := fs[j];
    var n := SlotCount(fs[..j]);
    var bound := IsSlot(f) && n < |params|;
    && (Optional in f.tags ==> v == Default)
    && (bound ==> v == Given(params[n]))
    && (v.Given? ==> bound)
    && (!bound && Optional !in f.tags && Random in f.tags ==>
          if f.kind == StringType then v.Str? else v == Default)
    && (!bound && Optional !in f.tags && Random !in f.tags ==> TypedOutcome(reg, w, wf, f.kind, v))
  }

  /** Every one of the values `vs` is the outcome `FieldOutcome` describes for
      its field. */
  predicate AllOutcomes(reg: seq<Id>, w: World, wf: World, fs: seq<Field>, params: seq<Param>, vs: seq<Value>)
    requires InWorld(reg, w)
  {
    && |vs| == |fs|
    && forall j | 0 <= j < |fs| :: FieldOutcome(reg, w, wf, fs, params, j, vs[j])
  }

  /** A model field holds the first registered instance of exactly its class,
      or else a new instance of that class allocated during this generation; a
      list of models holds one element, chosen the same way; any other field
      keeps its default. */
  predicate TypedOutcome(reg: seq<Id>, w: World, wf: World, k: FieldType, v: Value)
    requires InWorld(reg, w)
  {
    if !k.HoldsModel() then v == Default
    else match Lookup(reg, w, DeclaredClass(k))
      case Some(x) => v == (if k.ModelType? then Ref(x) else RefList([x]))
      case None =>
        exists id | w.next <= id && id in wf.objs ::
          && wf.objs[id].cls == k.ModelName()
          && v == (if k.ModelType? then Ref(id) else RefList([id]))
  }

  lemma FieldOutcomeEarlier(reg: seq<Id>, w: World, w': World, wf: World, fs: seq<Field>, params: seq<Param>, j: nat, v: Value)
    requires InWorld(reg, w) && Extends(w, w') && j < |fs|
    requires InWorld(reg, w') && FieldOutcome(reg, w', wf, fs, params, j, v)
    ensures FieldOutcome(reg, w, wf, fs, params, j, v)
  {
    LookupStable(reg, w, w', DeclaredClass(fs[j].kind));
  }

  lemma FieldOutcomeLater(reg: seq<Id>, w: World, wf: World, wf': World, fs: seq<Field>, params: seq<Param>, j: nat, v: Value)
    requires InWorld(reg, w) && Extends(wf, wf') && j < |fs|
    requires FieldOutcome(reg, w, wf, fs, params, j, v)
    ensures FieldOutcome(reg, w, wf', fs, params, j, v)
  {
    var k := fs[j].kind;
    if k.HoldsModel() && Lookup(reg, w, DeclaredClass(k)).None? && TypedOutcome(reg, w, wf, k, v) {
      var id :| w.next <= id && id in wf.objs && wf.objs[id].cls == k.ModelName()
        && v == (if k.ModelType? then Ref(id) else RefList([id]));
      assert wf'.objs[id] == wf.objs[id];
    }
  }

  lemma ResolveOutcome(env: Env, reg: seq<Id>, t: TypeName, i: nat, params: seq<Param>, w: World, wf: World)
    requires env.Valid() && t in env.schema && i < |env.schema[t]|
    requires WellFormed(w) && InWorld(reg, w)
    requires Resolve(env, reg, t, i, params, w).Ok?
    requires Extends(Resolve(env, reg, t, i, params, w).value.world, wf)
    ensures var fs := env.schema[t];
      var s := Resolve(env, reg, t, i, params, w).value;
      forall params0: seq<Param> | params == CursorAt(params0, fs, i) ::
        FieldOutcome(reg, w, wf, fs, params0, i, s.value)
  {
    var fs := env.schema[t];
    var f := fs[i];
    var s := Resolve(env, reg, t, i, params, w).value;
    forall params0: seq<Param> | params == CursorAt(params0, fs, i)
      ensures FieldOutcome(reg, w, wf, fs, params0, i, s.value)
    {
      var n := SlotCount(fs[..i]);
      assert |params| > 0 <==> n < |params0|;
      if n < |params0| {
        assert params[0] == params0[n];
      }
      if ByType(f, params) && f.kind.HoldsModel() && Lookup(reg, w, DeclaredClass(f.kind)).None? {
        assert wf.objs[w.next] == s.world.objs[w.next];
      }
    }
  }

  lemma CursorStep(params0: seq<Param>, fs: seq<Field>, i: nat, params: seq<Param>)
    requires i < |fs| && params == CursorAt(params0, fs, i)
    ensures CursorAt(params0, fs, i + 1) == if Consumes(fs[i], params) then params[1..] else params
  {
    SlotCountStep(fs, i);
  }

  /** Populating fields `i..` with the cursor a call given `params0` holds at
      field `i`: each field ends up as `FieldOutcome` says, and the cursor left
      over is `params0` minus one parameter per slot field, so parameters beyond
      the number of slot fields are left unconsumed. */
  lemma {:induction false} PopulateSpec(env: Env, reg: seq<Id>, t: TypeName, i: nat, acc: seq<Value>, params0: seq<Param>, w: World)
    requires env.Valid() && t in env.schema && i <= |env.schema[t]| && |acc| == i
    requires WellFormed(w) && InWorld(reg, w)
    requires Populate(env, reg, t, i, acc, CursorAt(params0, env.schema[t], i), w).Ok?
    ensures var fs := env.schema[t];
      var p := Populate(env, reg, t, i, acc, CursorAt(params0, fs, i), w).value;
      && p.rest == CursorAt(params0, fs, |fs|)
      && forall j | i <= j < |fs| :: FieldOutcome(reg, w, p.world, fs, params0, j, p.fields[j])
    decreases |env.schema[t]| - i
  {
    var fs := env.schema[t];
    var params := CursorAt(params0, fs, i);
    var p := Populate(env, reg, t, i, acc, params, w).value;
    if i < |fs| {
      var s := Resolve(env, reg, t, i, params, w).value;
      CursorStep(params0, fs, i, params);
      assert Populate(env, reg, t, i, acc, params, w) == Populate(env, reg, t, i + 1, acc + [s.value], s.params, s.world);
      PopulateSpec(env, reg, t, i + 1, acc + [s.value], params0, s.world);
      assert p.fields[i] == (p.fields[..i + 1])[i] == s.value;
      ResolveOutcome(env, reg, t, i, params, w, p.world);
      forall j | i + 1 <= j < |fs| ensures FieldOutcome(reg, w, p.world, fs, params0, j, p.fields[j]) {
        FieldOutcomeEarlier(reg, w, s.world, p.world, fs, params0, j, p.fields[j]);
      }
    }
  }

  /** Every field of an instance built by `Generate` from the parameters
      `params` is as `FieldOutcome` describes: in particular the `n`-th slot
      field in declaration order receives the `n`-th parameter while any are
      left, and `@Optional` fields keep their defaults. */
  lemma GenerateSpec(env: Env, reg: seq<Id>, t: TypeName, params: seq<Param>, w: World)
    requires env.Valid() && WellFormed(w) && InWorld(reg, w)
    requires Generate(env, reg, t, params, w).Ok?
    ensures var b := Generate(env, reg, t, params, w).value;
      AllOutcomes(reg, w, b.world, env.schema[t], params, b.world.objs[b.id].fields)
  {
    var fs := env.schema[t];
    var w0 := w.(next := w.next + 1);
    GenerateUnfold(env, reg, t, params, w);
    var p := Populate(env, reg, t, 0, [], params, w0).value;
    assert CursorAt(params, fs, 0) == params by {
      assert fs[..0] == [];
    }
    PopulateSpec(env, reg, t, 0, [], params, w0);
    StoredOutcomes(reg, w, w0, p, t, fs, params);
    var b := Generate(env, reg, t, params, w).value;
    assert b.id == w.next && b.world == p.world.(objs := p.world.objs[w.next := Instance(t, p.fields)]);
  }

  /** Positional binding: the slot field with `n` slot fields before it
      receives parameter `n` whenever at least `n + 1` parameters were passed. */
  lemma SlotGetsParameter(env: Env, reg: seq<Id>, t: TypeName, params: seq<Param>, w: World, j: nat)
    requires env.Valid() && WellFormed(w) && InWorld(reg, w)
    requires Generate(env, reg, t, params, w).Ok?
    requires j < |env.schema[t]| && IsSlot(env.schema[t][j])
    requires SlotCount(env.schema[t][..j]) < |params|
    ensures var b := Generate(env, reg, t, params, w).value;
      b.world.objs[b.id].fields[j] == Given(params[SlotCount(env.schema[t][..j])])
  {
    var b := Generate(env, reg, t, params, w).value;
    GenerateSpec(env, reg, t, params, w);
    assert FieldOutcome(reg, w, b.world, env.schema[t], params, j, b.world.objs[b.id].fields[j]);
  }

  /** Storing the loop's fields as a new instance keeps every field outcome. */
  lemma StoredOutcomes(reg: seq<Id>, w: World, w0: World, p: Filled, t: TypeName, fs: seq<Field>, params: seq<Param>)
    requires InWorld(reg, w) && w0 == w.(next := w.next + 1) && |p.fields| == |fs|
    requires Extends(w0, p.world) && w.next !in p.world.objs
    requires forall j | 0 <= j < |fs| :: FieldOutcome(reg, w0, p.world, fs, params, j, p.fields[j])
    ensures var w1 := p.world.(objs := p.world.objs[w.next := Instance(t, p.fields)]);
      AllOutcomes(reg, w, w1, fs, params, p.fields)
  {
    var w1 := p.world.(objs := p.world.objs[w.next := Instance(t, p.fields)]);
    assert Extends(p.world, w1);
    forall j | 0 <= j < |fs| ensures FieldOutcome(reg, w, w1, fs, params, j, p.fields[j]) {
      FieldOutcomeEarlier(reg, w, w0, p.world, fs, params, j, p.fields[j]);
      FieldOutcomeLater(reg, w, p.world, w1, fs, params, j, p.fields[j]);
    }
  }

  /** One step of `Generate`: the field loop succeeded on the world with the
      new identity reserved, and the instance is stored under that identity. */
  lemma GenerateUnfold(env: Env, reg: seq<Id>, t: TypeName, params: seq<Param>, w: World)
    requires env.Valid() && WellFormed(w) && InWorld(reg, w)
    requires Generate(env, reg, t, params, w).Ok?
    ensures t in env.schema
    ensures var w0 := w.(next := w.next + 1);
      var pr := Populate(env, reg, t, 0, [], params, w0);
      && pr.Ok?
      && w.next !in pr.value.world.objs
      && Generate(env, reg, t, params, w)
         == Ok(Built(w.next, pr.value.world.(objs := pr.value.world.objs[w.next := Instance(t, pr.value.fields)])))
  {
    var w0 := w.(next := w.next + 1);
    var pr := Populate(env, reg, t, 0, [], params, w0);
    assert pr.Ok?;
    var p := pr.value;
    GenerateStoreFacts(w, w0, p, p.world.(objs := p.world.objs[w.next := Instance(t, p.fields)]), reg, t, w.next);
  }

  /** Nested generation gets a copy of the current cursor: a model or list
      field that is not served from the registry is generated with the
      parameters left at that field, and the caller's cursor after the field
      is the cursor before it, whatever the nested call consumed. */
  lemma NestedGetsCursorCopy(env: Env, reg: seq<Id>, t: TypeName, i: nat, params: seq<Param>, w: World)
    requires env.Valid() && t in env.schema && i < |env.schema[t]|
    requires WellFormed(w) && InWorld(reg, w)
    requires var f := env.schema[t][i];
      ByType(f, params) && f.kind.HoldsModel() && Lookup(reg, w, DeclaredClass(f.kind)).None?
    ensures var f := env.schema[t][i];
      var n := Generate(env, reg, f.kind.ModelName(), params, w);
      var r := Resolve(env, reg, t, i, params, w);
      && r.Ok? == n.Ok?
      && (r.Ok? ==> r.value.params == params && r.value.world == n.value.world
                    && r.value.value == (if f.kind.ModelType? then Ref(n.value.id) else RefList([n.value.id])))
  {
    assert env.RankDrops(t, env.schema[t][i].kind);
  }

  /** `v` is the value a nested field gets from a generation of class `u`
      with the cursor `cursor` started in world `wj`, and that instance is
      still intact in the final world `wf`. */
  predicate NestedBuiltAt(env: Env, reg: seq<Id>, k: FieldType, cursor: seq<Param>, wj: World, v: Value, wf: World)
    requires env.Valid() && k.HoldsModel()
  {
    && WellFormed(wj) && InWorld(reg, wj)
    && var n := Generate(env, reg, k.ModelName(), cursor, wj);
    && n.Ok?
    && v == (if k.ModelType? then Ref(n.value.id) else RefList([n.value.id]))
    && n.value.id in wf.objs
    && wf.objs[n.value.id] == n.value.world.objs[n.value.id]
  }

  /** A field that resolves by type and is not served from the registry holds
      an instance generated with exactly the cursor its owner holds at that
      field: a nested call works on a copy of the cursor. */
  lemma {:induction false} PopulateNested(env: Env, reg: seq<Id>, t: TypeName, i: nat, acc: seq<Value>, params0: seq<Param>, w: World, j: nat)
    requires env.Valid() && t in env.schema && i <= j < |env.schema[t]| && |acc| == i
    requires WellFormed(w) && InWorld(reg, w)
    requires Populate(env, reg, t, i, acc, CursorAt(params0, env.schema[t], i), w).Ok?
    requires var f := env.schema[t][j];
      && ByType(f, CursorAt(params0, env.schema[t], j))
      && f.kind.HoldsModel()
      && Lookup(reg, w, DeclaredClass(f.kind)).None?
    ensures var fs := env.schema[t];
      var p := Populate(env, reg, t, i, acc, CursorAt(params0, fs, i), w).value;
      exists wj: World | Extends(w, wj) ::
        NestedBuiltAt(env, reg, fs[j].kind, CursorAt(params0, fs, j), wj, p.fields[j], p.world)
    decreases |env.schema[t]| - i
  {
    var fs := env.schema[t];
    var params := CursorAt(params0, fs, i);
    var p := Populate(env, reg, t, i, acc, params, w).value;
    var s := Resolve(env, reg, t, i, params, w).value;
    CursorStep(params0, fs, i, params);
    assert Populate(env, reg, t, i, acc, params, w) == Populate(env, reg, t, i + 1, acc + [s.value], s.params, s.world);
    if i == j {
      NestedGetsCursorCopy(env, reg, t, i, params, w);
      assert p.fields[i] == (p.fields[..i + 1])[i];
      var n := Generate(env, reg, fs[j].kind.ModelName(), params, w).value;
      assert p.world.objs[n.id] == s.world.objs[n.id];
      assert NestedBuiltAt(env, reg, fs[j].kind, params, w, p.fields[j], p.world);
    } else {
      LookupStable(reg, w, s.world, DeclaredClass(fs[j].kind));
      PopulateNested(env, reg, t, i + 1, acc + [s.value], params0, s.world, j);
      var wj: World :| Extends(s.world, wj) &&
        NestedBuiltAt(env, reg, fs[j].kind, CursorAt(params0, fs, j), wj, p.fields[j], p.world);
      assert Extends(w, wj);
    }
  }

  /** `PopulateNested` for a whole generation: nested field `j` of the new
      instance was generated with the parameters left after the slot fields
      before `j` took theirs. */
  lemma GenerateNested(env: Env, reg: seq<Id>, t: TypeName, params: seq<Param>, w: World, j: nat)
    requires env.Valid() && WellFormed(w) && InWorld(reg, w)
    requires Generate(env, reg, t, params, w).Ok?
    requires j < |env.schema[t]|
    requires var f := env.schema[t][j];
      && ByType(f, CursorAt(params, env.schema[t], j))
      && f.kind.HoldsModel()
      && Lookup(reg, w, DeclaredClass(f.kind)).None?
    ensures var b := Generate(env, reg, t, params, w).value;
      var fs := env.schema[t];
      exists wj: World | Extends(w, wj) ::
        NestedBuiltAt(env, reg, fs[j].kind, CursorAt(params, fs, j), wj, b.world.objs[b.id].fields[j], b.world)
  {
    var fs := env.schema[t];
    var k := fs[j].kind;
    var cursor := CursorAt(params, fs, j);
    var id := w.next;
    var w0 := w.(next := id + 1);
    GenerateUnfold(env, reg, t, params, w);
    var p := Populate(env, reg, t, 0, [], params, w0).value;
    assert exists wj: World | Extends(w0, wj) :: NestedBuiltAt(env, reg, k, cursor, wj, p.fields[j], p.world) by {
      assert CursorAt(params, fs, 0) == params by {
        assert fs[..0] == [];
      }
      LookupStable(reg, w, w0, DeclaredClass(k));
      PopulateNested(env, reg, t, 0, [], params, w0, j);
    }
    StoredNested(env, reg, k, cursor, w, w0, p, t, j);
  }

  /** Storing the loop's fields as a new instance keeps a nested field's
      instance intact. */
  lemma StoredNested(env: Env, reg: seq<Id>, k: FieldType, cursor: seq<Param>, w: World, w0: World, p: Filled, t: TypeName, j: nat)
    requires env.Valid() && k.HoldsModel() && j < |p.fields|
    requires w0 == w.(next := w.next + 1) && Extends(w0, p.world) && w.next !in p.world.objs
    requires exists wj: World | Extends(w0, wj) :: NestedBuiltAt(env, reg, k, cursor, wj, p.fields[j], p.world)
    ensures var w1 := p.world.(objs := p.world.objs[w.next := Instance(t, p.fields)]);
      exists wj: World | Extends(w, wj) :: NestedBuiltAt(env, reg, k, cursor, wj, w1.objs[w.next].fields[j], w1)
  {
    var w1 := p.world.(objs := p.world.objs[w.next := Instance(t, p.fields)]);
    var wj: World :| Extends(w0, wj) && NestedBuiltAt(env, reg, k, cursor, wj, p.fields[j], p.world);
    assert Extends(p.world, w1);
    assert w1.objs[w.next].fields[j] == p.fields[j];
    NestedBuiltLater(env, reg, k, cursor, wj, p.fields[j], p.world, w1);
    assert Extends(w, w0);
  }

  lemma NestedBuiltLater(env: Env, reg: seq<Id>, k: FieldType, cursor: seq<Param>, wj: World, v: Value, wf: World, wf': World)
    requires env.Valid() && k.HoldsModel() && Extends(wf, wf')
    requires NestedBuiltAt(env, reg, k, cursor, wj, v, wf)
    ensures NestedBuiltAt(env, reg, k, cursor, wj, v, wf')
  {
  }

  /** Every model class that a field resolved by its type can name is in the
      schema, and no such list field has an element type that is not a class.
      `@Optional` and `@Random` fields never reach the type rules. */
  predicate Closed(s: Schema) {
    forall t, j | t in s && 0 <= j < |s[t]| && Optional !in s[t][j].tags && Random !in s[t][j].tags ::
      FieldClosed(s, s[t][j].kind)
  }

  predicate FieldClosed(s: Schema, k: FieldType) {
    && (k.HoldsModel() ==> k.ModelName() in s)
    && k != ListType(ElemNotClass)
  }

  /** Every parameter can be assigned to every slot field of the schema. */
  predicate ParamsFit(s: Schema, params: seq<Param>) {
    forall t, j, p | t in s && 0 <= j < |s[t]| && p in params && IsSlot(s[t][j]) :: Accepts(s[t][j].kind, p)
  }

  /** Generation of a constructible class succeeds when every reachable class is
      constructible and the parameters fit; with no parameters this is the
      aggregate's situation. */
  lemma {:induction false} GenerateOk(env: Env, reg: seq<Id>, t: TypeName, params: seq<Param>, w: World)
    requires env.Valid() && WellFormed(w) && InWorld(reg, w)
    requires Closed(env.schema) && ParamsFit(env.schema, params) && t in env.schema
    ensures Generate(env, reg, t, params, w).Ok?
    decreases env.Measure(t), 2
  {
    PopulateOk(env, reg, t, 0, [], params, w.(next := w.next + 1));
  }

  lemma {:induction false} PopulateOk(env: Env, reg: seq<Id>, t: TypeName, i: nat, acc: seq<Value>, params: seq<Param>, w: World)
    requires env.Valid() && t in env.schema && i <= |env.schema[t]| && |acc| == i
    requires WellFormed(w) && InWorld(reg, w)
    requires Closed(env.schema) && ParamsFit(env.schema, params)
    ensures Populate(env, reg, t, i, acc, params, w).Ok?
    decreases env.Measure(t), 1, |env.schema[t]| - i
  {
    if i < |env.schema[t]| {
      ResolveOk(env, reg, t, i, params, w);
      var s := Resolve(env, reg, t, i, params, w).value;
      assert forall p | p in s.params :: p in params;
      PopulateOk(env, reg, t, i + 1, acc + [s.value], s.params, s.world);
    }
  }

  lemma {:induction false} ResolveOk(env: Env, reg: seq<Id>, t: TypeName, i: nat, params: seq<Param>, w: World)
    requires env.Valid() && t in env.schema && i < |env.schema[t]|
    requires WellFormed(w) && InWorld(reg, w)
    requires Closed(env.schema) && ParamsFit(env.schema, params)
    ensures Resolve(env, reg, t, i, params, w).Ok?
    decreases env.Measure(t), 0
  {
    var f := env.schema[t][i];
    if Consumes(f, params) {
      assert params[0] in params;
    } else if ByType(f, params) {
      assert FieldClosed(env.schema, f.kind);
    }
    if ByType(f, params) && f.kind.HoldsModel() && Lookup(reg, w, DeclaredClass(f.kind)).None? {
      assert env.RankDrops(t, f.kind);
      GenerateOk(env, reg, f.kind.ModelName(), params, w);
    }
  }

  /** No field of `fs` is a model or a list of models. */
  predicate NoNestedModels(fs: seq<Field>) {
    forall j | 0 <= j < |fs| :: !fs[j].kind.HoldsModel()
  }

  lemma {:induction false} PopulateExcess(env: Env, reg: seq<Id>, t: TypeName, i: nat, acc: seq<Value>, params0: seq<Param>, extra: seq<Param>, w: World)
    requires env.Valid() && t in env.schema && i <= |env.schema[t]| && |acc| == i
    requires WellFormed(w) && InWorld(reg, w)
    requires NoNestedModels(env.schema[t]) && SlotCount(env.schema[t]) <= |params0|
    ensures var fs := env.schema[t];
      Populate(env, reg, t, i, acc, CursorAt(params0, fs, i) + extra, w) ==
        match Populate(env, reg, t, i, acc, CursorAt(params0, fs, i), w)
        case Ok(p) => Ok(p.(rest := p.rest + extra))
        case Err(e) => Err(e)
    decreases |env.schema[t]| - i
  {
    var fs := env.schema[t];
    var params := CursorAt(params0, fs, i);
    if i < |fs| {
      assert fs[..|fs|] == fs;
      SlotCountMono(fs, i + 1, |fs|);
      SlotCountStep(fs, i);
      var r := Resolve(env, reg, t, i, params, w);
      var r' := Resolve(env, reg, t, i, params + extra, w);
      assert !fs[i].kind.HoldsModel();
      if IsSlot(fs[i]) {
        assert |params| > 0;
        assert (params + extra)[0] == params[0];
        assert (params + extra)[1..] == params[1..] + extra;
      }
      if r.Ok? {
        CursorStep(params0, fs, i, params);
        assert r' == Ok(r.value.(params := r.value.params + extra));
        PopulateExcess(env, reg, t, i + 1, acc + [r.value.value], params0, extra, r.value.world);
      } else {
        assert r' == r;
      }
    }
  }

  /** Surplus parameters are not an error: for a class with no nested models,
      parameters beyond the number of slot fields change nothing. */
  lemma ExcessParamsIgnored(env: Env, reg: seq<Id>, t: TypeName, params: seq<Param>, extra: seq<Param>, w: World)
    requires env.Valid() && WellFormed(w) && InWorld(reg, w)
    requires t in env.schema && NoNestedModels(env.schema[t]) && SlotCount(env.schema[t]) <= |params|
    ensures Generate(env, reg, t, params + extra, w) == Generate(env, reg, t, params, w)
  {
    var fs := env.schema[t];
    var w0 := w.(next := w.next + 1);
    assert fs[..0] == [];
    assert CursorAt(params, fs, 0) == params;
    PopulateExcess(env, reg, t, 0, [], params, extra, w0);
    GenerateSamePopulate(env, reg, t, params + extra, params, w);
  }

  /** The field loops of `generate` for the cursors `p1` and `p2` fail alike,
      or succeed with the same fields and the same world. */
  predicate SamePopulate(env: Env, reg: seq<Id>, t: TypeName, p1: seq<Param>, p2: seq<Param>, w: World)
    requires env.Valid() && WellFormed(w) && InWorld(reg, w) && t in env.schema
  {
    var w0 := w.(next := w.next + 1);
    var a := Populate(env, reg, t, 0, [], p1, w0);
    var b := Populate(env, reg, t, 0, [], p2, w0);
    && a.Ok? == b.Ok?
    && (a.Err? ==> a == b)
    && (a.Ok? ==> a.value.fields == b.value.fields && a.value.world == b.value.world)
  }

  /** `generate` looks only at the fields and the world its loop produces, not
      at the cursor the loop leaves behind. */
  lemma GenerateSamePopulate(env: Env, reg: seq<Id>, t: TypeName, p1: seq<Param>, p2: seq<Param>, w: World)
    requires env.Valid() && WellFormed(w) && InWorld(reg, w) && t in env.schema
    requires SamePopulate(env, reg, t, p1, p2, w)
    ensures Generate(env, reg, t, p1, w) == Generate(env, reg, t, p2, w)
  {
  }

  /** Two top-level generations through the registry-free overload share no
      instance: nothing the second one creates refers to anything the first
      one created. */
  lemma IndependentCallsShareNothing(env: Env, t1: TypeName, p1: seq<Param>, t2: TypeName, p2: seq<Param>, w: World)
    requires env.Valid() && WellFormed(w)
    requires GenerateFresh(env, t1, p1, w).Ok?
    requires GenerateFresh(env, t2, p2, GenerateFresh(env, t1, p1, w).value.world).Ok?
    ensures var w1 := GenerateFresh(env, t1, p1, w).value.world;
      var w2 := GenerateFresh(env, t2, p2, w1).value.world;
      forall id, k | id in w2.objs && id !in w1.objs && 0 <= k < |w2.objs[id].fields| ::
        !RefersInto(w2.objs[id].fields[k], w.next, w1.next)
  {
  }

  /** Field value `v` refers to an identity in `[lo, hi)`. */
  predicate RefersInto(v: Value, lo: Id, hi: Id) {
    match v
    case Ref(id) => lo <= id < hi
    case RefList(ids) => exists id | id in ids :: lo <= id < hi
    case _ => false
  }
}

=== FILE: model.dfy ===
/** The data the test-data generator works on: the schema that replaces Java
    reflection over model classes, the values a generated field can hold, and
    the world of allocated instances that gives generated models their
    reference identity.
 */
module Model {

  datatype Option<+T> = None | Some(value: T)

  /** Name of a model class, i.e. a subclass of BaseModel. */
  type TypeName = string

  /** The three field annotations the generator inspects. */
  datatype Annotation = Optional | Parameterizable | Random

  /** Type argument of a field declared as `List`. */
  datatype ElemType =
    | Raw                        // `List` with no type argument
    | ElemModel(model: TypeName) // `List<M>` where M is a model class
    | ElemPlain                  // `List<C>` where C is a class that is not a model
    | ElemNotClass               // `List<?>`, `List<List<M>>`: the argument is not a class

  /** Declared type of a field. */
  datatype FieldType =
    | StringType
    | ModelType(model: TypeName)
    | ListType(elem: ElemType)
    | OtherType(name: string)
  {
    /** The model class this field would be generated from under rules 4 and 5. */
    predicate HoldsModel() {
      ModelType? || (ListType? && elem.ElemModel?)
    }

    function ModelName(): TypeName
      requires HoldsModel()
    {
      if ModelType? then model else elem.model
    }
  }

  /** One declared field, in declaration order within its class. */
  datatype Field = Field(name: string, tags: set<Annotation>, kind: FieldType)

  /** Field descriptors of every model class that can be default-constructed.
      A class missing from the map has no usable no-argument constructor. */
  type Schema = map<TypeName, seq<Field>>

  /** A runtime class, as compared by `getClass().equals(field.getType())`. */
  datatype JavaClass = ModelClass(model: TypeName) | StringClass | ListInterface | OtherClass(name: string)

  /** The class object `field.getType()` returns for a field of kind `k`. */
  function DeclaredClass(k: FieldType): JavaClass {
    match k
    case StringType => StringClass
    case ModelType(m) => ModelClass(m)
    case ListType(_) => ListInterface
    case OtherType(c) => OtherClass(c)
  }

  /** A caller-supplied parameter: a string, or a value of some other class. */
  datatype Param = PString(s: string) | PValue(cls: string, payload: int)

  /** Whether reflective assignment of `p` into a field of kind `k` succeeds;
      assignability is taken as an exact match of classes. */
  predicate Accepts(k: FieldType, p: Param) {
    match p
    case PString(_) => k == StringType
    case PValue(c, _) => k == OtherType(c)
  }

  type Id = nat

  /** The content of one field of a generated instance. `Default` is whatever
      the no-argument constructor left there. */
  datatype Value =
    | Default
    | Str(s: string)          // a random string
    | Given(param: Param)     // a caller-supplied parameter
    | Ref(id: Id)             // a reference to a model instance
    | RefList(ids: seq<Id>)   // a list of references to model instances

  datatype Instance = Instance(cls: TypeName, fields: seq<Value>)

  /** Every generated instance is a model instance: its class is its model class. */
  function ClassOf(o: Instance): JavaClass {
    ModelClass(o.cls)
  }

  /** The heap of model instances: `next` is the next identity to hand out,
      `draws` counts the random strings drawn so far. */
  datatype World = World(next: Id, objs: map<Id, Instance>, draws: nat)

  /** Every allocated identity is below the allocation counter. */
  predicate WellFormed(w: World) {
    forall id | id in w.objs :: id < w.next
  }

  /** `w'` is a later state of `w`: no instance disappears or changes. */
  predicate Extends(w: World, w': World) {
    && w.next <= w'.next
    && forall id | id in w.objs :: id in w'.objs && w'.objs[id] == w.objs[id]
  }

  /** The generation failures: a class that cannot be default-constructed, a
      parameter that cannot be assigned to its field, a list whose element
      class cannot be determined. */
  datatype GenError =
    | CannotConstruct(model: TypeName)
    | ParamMismatch(owner: TypeName, field: string)
    | UnresolvedElement(owner: TypeName, field: string)

  datatype Result<+T> = Ok(value: T) | Err(error: GenError)

  /** What generation reads but never changes: the schema, a rank on model
      classes witnessing that generation cannot recurse forever, and the source of
      random strings (the k-th draw is `random(k)`). */
  datatype Env = Env(schema: Schema, rank: map<TypeName, nat>, random: nat -> string)
  {
    /** Every model field that generation can recurse through (one that is
        neither `@Optional` nor `@Random`) points to a class of strictly lower
        rank. Cycles through skipped or random fields are harmless. */
    predicate Valid() {
      forall t | t in schema ::
        && t in rank
        && forall j | 0 <= j < |schema[t]| ::
             Optional !in schema[t][j].tags && Random !in schema[t][j].tags ==> RankDrops(t, schema[t][j].kind)
    }

    predicate RankDrops(t: TypeName, k: FieldType)
      requires t in rank
    {
      k.HoldsModel() && k.ModelName() in schema ==> k.ModelName() in rank && rank[k.ModelName()] < rank[t]
    }

    /** Termination measure of generating class `t`. */
    function Measure(t: TypeName): nat {
      if t in schema && t in rank then rank[t] + 1 else 0
    }
  }
}

=== FILE: registry.dfy ===
/** The reuse registry: the ordered list of already generated models that a
    nested model field may take instead of generating its own.
 */
module Registry {
  import opened Model

  /** Every registry entry names an allocated instance. */
  predicate InWorld(reg: seq<Id>, w: World) {
    forall k | 0 <= k < |reg| :: reg[k] in w.objs
  }

  /** Index of the first entry at or after `from` whose runtime class is exactly `c`. */
  function FirstMatch(reg: seq<Id>, w: World, c: JavaClass, from: nat): (r: Option<nat>)
    requires InWorld(reg, w) && from <= |reg|
    ensures r.Some? ==>
      && from <= r.value < |reg|
      && ClassOf(w.objs[reg[r.value]]) == c
      && forall k | from <= k < r.value :: ClassOf(w.objs[reg[k]]) != c
    ensures r.None? ==> forall k | from <= k < |reg| :: ClassOf(w.objs[reg[k]]) != c
    decreases |reg| - from
  {
    if from == |reg| then None
    else if ClassOf(w.objs[reg[from]]) == c then Some(from)
    else FirstMatch(reg, w, c, from + 1)
  }

  /** The lookup of `stream().filter(m -> m.getClass().equals(type)).findFirst()`:
      the first registered instance whose class equals `c`, itself and not a copy. */
  function Lookup(reg: seq<Id>, w: World, c: JavaClass): (r: Option<Id>)
    requires InWorld(reg, w)
    ensures r.Some? ==> exists k | 0 <= k < |reg| :: reg[k] == r.value && FirstAt(reg, w, c, k)
    ensures r.None? <==> forall k | 0 <= k < |reg| :: ClassOf(w.objs[reg[k]]) != c
  {
    match FirstMatch(reg, w, c, 0)
    case None => None
    case Some(k) => assert FirstAt(reg, w, c, k); Some(reg[k])
  }

  /** Entry `k` has class `c` and no earlier entry does. */
  predicate FirstAt(reg: seq<Id>, w: World, c: JavaClass, k: nat)
    requires InWorld(reg, w) && k < |reg|
  {
    && ClassOf(w.objs[reg[k]]) == c
    && forall j | 0 <= j < k :: ClassOf(w.objs[reg[j]]) != c
  }

  /** A found instance is a registry entry of exactly the requested class. */
  lemma LookupFindsEntry(reg: seq<Id>, w: World, c: JavaClass)
    requires InWorld(reg, w) && Lookup(reg, w, c).Some?
    ensures Lookup(reg, w, c).value in reg
    ensures ClassOf(w.objs[Lookup(reg, w, c).value]) == c
  {
    var k :| 0 <= k < |reg| && reg[k] == Lookup(reg, w, c).value && FirstAt(reg, w, c, k);
  }

  /** A list field is never served from the registry: its declared type is the
      `List` interface, and every registered instance's class is a model class. */
  lemma ListNeverReused(reg: seq<Id>, w: World, e: ElemType)
    requires InWorld(reg, w)
    ensures Lookup(reg, w, DeclaredClass(ListType(e))) == None
  {
  }

  lemma {:induction false} FirstMatchStable(reg: seq<Id>, w: World, w': World, c: JavaClass, from: nat)
    requires InWorld(reg, w) && Extends(w, w') && from <= |reg|
    ensures InWorld(reg, w')
    ensures FirstMatch(reg, w', c, from) == FirstMatch(reg, w, c, from)
    decreases |reg| - from
  {
    if from < |reg| {
      assert w'.objs[reg[from]] == w.objs[reg[from]];
      FirstMatchStable(reg, w, w', c, from + 1);
    }
  }

  /** Generation only adds instances, so what the registry serves never changes. */
  lemma LookupStable(reg: seq<Id>, w: World, w': World, c: JavaClass)
    requires InWorld(reg, w) && Extends(w, w')
    ensures InWorld(reg, w')
    ensures Lookup(reg, w', c) == Lookup(reg, w, c)
  {
    FirstMatchStable(reg, w, w', c, 0);
  }

  lemma {:induction false} FirstMatchAppend(reg: seq<Id>, id: Id, w: World, c: JavaClass, from: nat)
    requires InWorld(reg + [id], w) && id in w.objs && from <= |reg|
    ensures InWorld(reg, w)
    ensures FirstMatch(reg + [id], w, c, from) ==
      match FirstMatch(reg, w, c, from)
      case Some(k) => Some(k)
      case None => if ClassOf(w.objs[id]) == c then Some(|reg|) else None
    decreases |reg| - from
  {
    assert forall k | 0 <= k < |reg| :: (reg + [id])[k] == reg[k];
    if from < |reg| {
      FirstMatchAppend(reg, id, w, c, from + 1);
    }
  }

  /** Appending to the registry never changes an earlier answer, and otherwise
      serves the appended instance exactly when its class matches. */
  lemma LookupAppend(reg: seq<Id>, id: Id, w: World, c: JavaClass)
    requires InWorld(reg, w) && id in w.objs
    ensures InWorld(reg + [id], w)
    ensures Lookup(reg + [id], w, c) ==
      match Lookup(reg, w, c)
      case Some(x) => Some(x)
      case None => if ClassOf(w.objs[id]) == c then Some(id) else None
  {
    assert InWorld(reg + [id], w) by {
      forall k | 0 <= k < |reg + [id]| ensures (reg + [id])[k] in w.objs {
        if k < |reg| { assert (reg + [id])[k] == reg[k]; }
      }
    }
    FirstMatchAppend(reg, id, w, c, 0);
    assert (reg + [id])[|reg|] == id;
  }
}

=== FILE: reuse.dfy ===
/** Reuse at any depth. A call with no parameters hands its registry to every
    nested call, so every instance it creates, however deep, serves its
    by-type model fields from the registry. No field it fills holds a
    caller parameter.
 */
module Reuse {
  import opened Model
  import opened Registry
  import opened Generator
  import opened GeneratorProps

  /** Field `f` of an instance generated with no parameters, under registry
      `reg` read in `w`. The field holds no parameter. If it is a model field
      that resolves by type and its class is registered, it holds the first
      registered instance of that class. */
  predicate FieldReuses(reg: seq<Id>, w: World, f: Field, v: Value)
    requires InWorld(reg, w)
  {
    && !v.Given?
    && (f.kind.ModelType? && Optional !in f.tags && Random !in f.tags ==>
          match Lookup(reg, w, ModelClass(f.kind.model))
          case Some(e) => v == Ref(e)
          case None => true)
  }

  /** Instance `o` is one of the schema's classes and every field of it is as
      `FieldReuses` describes. */
  predicate InstanceReuses(env: Env, reg: seq<Id>, w: World, o: Instance)
    requires InWorld(reg, w)
  {
    && o.cls in env.schema
    && |o.fields| == |env.schema[o.cls]|
    && forall q | 0 <= q < |o.fields| :: FieldReuses(reg, w, env.schema[o.cls][q], o.fields[q])
  }

  /** Every instance of `wf` that is not in `w` is as `InstanceReuses` describes. */
  predicate CreatedReuse(env: Env, reg: seq<Id>, w: World, wf: World)
    requires InWorld(reg, w)
  {
    forall id | id in wf.objs && id !in w.objs :: InstanceReuses(env, reg, w, wf.objs[id])
  }

  /** The registry answers the same in any later world. */
  lemma InstanceReusesEarlier(env: Env, reg: seq<Id>, w: World, w': World, o: Instance)
    requires InWorld(reg, w) && Extends(w, w') && InWorld(reg, w')
    requires InstanceReuses(env, reg, w', o)
    ensures InstanceReuses(env, reg, w, o)
  {
    forall q | 0 <= q < |o.fields| ensures FieldReuses(reg, w, env.schema[o.cls][q], o.fields[q]) {
      LookupStable(reg, w, w', DeclaredClass(env.schema[o.cls][q].kind));
    }
  }

  /** A class registered before an append is still served by the same
      instance after it. */
  lemma InstanceReusesPrefix(env: Env, reg: seq<Id>, id: Id, w: World, o: Instance)
    requires InWorld(reg, w) && id in w.objs && InWorld(reg + [id], w)
    requires InstanceReuses(env, reg + [id], w, o)
    ensures InstanceReuses(env, reg, w, o)
  {
    forall q | 0 <= q < |o.fields| ensures FieldReuses(reg, w, env.schema[o.cls][q], o.fields[q]) {
      LookupAppend(reg, id, w, DeclaredClass(env.schema[o.cls][q].kind));
    }
  }

  /** A field outcome under no parameters is as `FieldReuses` describes. */
  lemma OutcomeReuses(reg: seq<Id>, w: World, wf: World, fs: seq<Field>, j: nat, v: Value)
    requires InWorld(reg, w) && j < |fs|
    requires FieldOutcome(reg, w, wf, fs, [], j, v)
    ensures FieldReuses(reg, w, fs[j], v)
  {
  }

  /** `generate(generatedModels, cls)` with no parameters: every instance the
      call creates serves its by-type model fields from `generatedModels`,
      however deep it is nested, and holds no caller parameter. */
  lemma {:induction false} GenerateReuses(env: Env, reg: seq<Id>, t: TypeName, w: World)
    requires env.Valid() && WellFormed(w) && InWorld(reg, w)
    requires Generate(env, reg, t, [], w).Ok?
    ensures CreatedReuse(env, reg, w, Generate(env, reg, t, [], w).value.world)
    decreases env.Measure(t), 2
  {
    var w0 := w.(next := w.next + 1);
    GenerateUnfold(env, reg, t, [], w);
    var p := Populate(env, reg, t, 0, [], [], w0).value;
    PopulateReuses(env, reg, t, 0, [], w0);
    GenerateSpec(env, reg, t, [], w);
    var b := Generate(env, reg, t, [], w).value;
    assert b.id == w.next && b.world == p.world.(objs := p.world.objs[w.next := Instance(t, p.fields)]);
    forall id | id in b.world.objs && id !in w.objs ensures InstanceReuses(env, reg, w, b.world.objs[id]) {
      if id == w.next {
        var o := b.world.objs[id];
        forall q | 0 <= q < |o.fields| ensures FieldReuses(reg, w, env.schema[t][q], o.fields[q]) {
          OutcomeReuses(reg, w, b.world, env.schema[t], q, o.fields[q]);
        }
      } else {
        assert b.world.objs[id] == p.world.objs[id];
        InstanceReusesEarlier(env, reg, w, w0, p.world.objs[id]);
      }
    }
  }

  lemma {:induction false} PopulateReuses(env: Env, reg: seq<Id>, t: TypeName, i: nat, acc: seq<Value>, w: World)
    requires env.Valid() && t in env.schema && i <= |env.schema[t]| && |acc| == i
    requires WellFormed(w) && InWorld(reg, w)
    requires Populate(env, reg, t, i, acc, [], w).Ok?
    ensures CreatedReuse(env, reg, w, Populate(env, reg, t, i, acc, [], w).value.world)
    decreases env.Measure(t), 1, |env.schema[t]| - i
  {
    if i < |env.schema[t]| {
      var s := Resolve(env, reg, t, i, [], w).value;
      ResolveReuses(env, reg, t, i, w);
      assert Populate(env, reg, t, i, acc, [], w) == Populate(env, reg, t, i + 1, acc + [s.value], [], s.world);
      PopulateReuses(env, reg, t, i + 1, acc + [s.value], s.world);
      var p := Populate(env, reg, t, i, acc, [], w).value;
      LookupStable(reg, w, s.world, ModelClass(t));
      forall id | id in p.world.objs && id !in w.objs ensures InstanceReuses(env, reg, w, p.world.objs[id]) {
        if id in s.world.objs {
          assert p.world.objs[id] == s.world.objs[id];
        } else {
          InstanceReusesEarlier(env, reg, w, s.world, p.world.objs[id]);
        }
      }
    }
  }

  lemma {:induction false} ResolveReuses(env: Env, reg: seq<Id>, t: TypeName, i: nat, w: World)
    requires env.Valid() && t in env.schema && i < |env.schema[t]|
    requires WellFormed(w) && InWorld(reg, w)
    requires Resolve(env, reg, t, i, [], w).Ok?
    ensures Resolve(env, reg, t, i, [], w).value.params == []
    ensures CreatedReuse(env, reg, w, Resolve(env, reg, t, i, [], w).value.world)
    decreases env.Measure(t), 0
  {
    var f := env.schema[t][i];
    if ByType(f, []) && f.kind.HoldsModel() && Lookup(reg, w, DeclaredClass(f.kind)).None? {
      assert env.RankDrops(t, f.kind);
      GenerateReuses(env, reg, f.kind.ModelName(), w);
    }
  }
}

=== FILE: scenarios.dfy ===
/** Concrete schemas and what generation does on them: a `TestData` whose
    build type shares the project generated before it, and a nested model that
    sees the same parameter as its owner.
 */
module Scenarios {
  import opened Model
  import opened Generator
  import opened GeneratorProps
  import opened Aggregate

  /** A project description with two random strings and a flag. */
  function ProjectFields(): seq<Field> {
    [ Field("id", {Random}, StringType),
      Field("name", {Random}, StringType),
      Field("copyAllAssociatedSettings", {}, OtherType("Boolean")) ]
  }

  /** A build type that belongs to a project. */
  function BuildTypeFields(): seq<Field> {
    [ Field("id", {Random}, StringType),
      Field("name", {Random}, StringType),
      Field("project", {}, ModelType("NewProjectDescription")) ]
  }

  /** The aggregate declares the project before the build type. */
  function TestDataFields(): seq<Field> {
    [ Field("project", {}, ModelType("NewProjectDescription")),
      Field("buildType", {}, ModelType("BuildType")) ]
  }

  function TeamCity(random: nat -> string): Env {
    Env(map[ "NewProjectDescription" := ProjectFields(),
             "BuildType" := BuildTypeFields(),
             "TestData" := TestDataFields() ],
        map[ "NewProjectDescription" := 0, "BuildType" := 1, "TestData" := 2 ],
        random)
  }

  /** `generate()` on this schema succeeds, the project and the build type are
      distinct new instances of their classes, and the build type's `project`
      field holds the aggregate's project itself, not a second project. */
  lemma BuildTypeSharesProject(random: nat -> string, w: World)
    requires WellFormed(w)
    ensures TeamCity(random).Valid()
    ensures var r := GenerateTestData(TeamCity(random), "TestData", w);
      && r.Ok?
      && var d := r.value.data.fields;
      && |d| == 2 && d[0].Ref? && d[1].Ref? && d[0] != d[1]
      && r.value.world.objs[d[0].id].cls == "NewProjectDescription"
      && r.value.world.objs[d[1].id].cls == "BuildType"
      && r.value.world.objs[d[1].id].fields[2] == d[0]
  {
    var env := TeamCity(random);
    TeamCityFacts(random);
    GenerateTestDataOk(env, "TestData", w);
    AggregateSharesEarlierInstance(env, "TestData", w, 0, 1, 2);
    var g := GenerateTestData(env, "TestData", w).value;
    var d := g.data.fields;
    assert AggregateField(env.schema["TestData"][0].kind, d[0], w, g.world);
    assert AggregateField(env.schema["TestData"][1].kind, d[1], w, g.world);
  }

  lemma TeamCityFacts(random: nat -> string)
    ensures TeamCity(random).Valid()
    ensures Closed(TeamCity(random).schema)
    ensures "TestData" in TeamCity(random).schema
    ensures var fs := TeamCity(random).schema["TestData"];
      && |fs| == 2 && fs[0].kind == ModelType("NewProjectDescription") && fs[1].kind == ModelType("BuildType")
    ensures NestsByType(TeamCity(random), "BuildType", 2, "NewProjectDescription")
  {
  }

  /** An owner whose first field is a nested model and whose second field takes
      a parameter; the nested model's only field takes a parameter too. */
  function SnapshotEnv(random: nat -> string): Env {
    Env(map[ "Outer" := [ Field("child", {}, ModelType("Inner")),
                          Field("name", {Parameterizable}, StringType) ],
             "Inner" := [ Field("title", {Parameterizable}, StringType) ] ],
        map[ "Outer" := 1, "Inner" := 0 ],
        random)
  }

  lemma SnapshotEnvFacts(random: nat -> string)
    ensures SnapshotEnv(random).Valid()
    ensures Closed(SnapshotEnv(random).schema)
    ensures ParamsFit(SnapshotEnv(random).schema, [PString("x")])
    ensures "Outer" in SnapshotEnv(random).schema && "Inner" in SnapshotEnv(random).schema
    ensures var fs := SnapshotEnv(random).schema["Outer"];
      && |fs| == 2 && IsSlot(fs[1]) && SlotCount(fs[..1]) == 0
  {
    var fs := SnapshotEnv(random).schema["Outer"];
    assert fs[..1] == [fs[0]];
  }

  /** The nested model, generated on its own, binds "x" to `title`. */
  lemma InnerTakesParameter(random: nat -> string, w0: World)
    requires WellFormed(w0)
    ensures SnapshotEnv(random).Valid()
    ensures var n := Generate(SnapshotEnv(random), [], "Inner", [PString("x")], w0);
      && n.Ok?
      && n.value.id in n.value.world.objs
      && |n.value.world.objs[n.value.id].fields| == 1
      && n.value.world.objs[n.value.id].fields[0] == Given(PString("x"))
  {
    var env := SnapshotEnv(random);
    SnapshotEnvFacts(random);
    GenerateOk(env, [], "Inner", [PString("x")], w0);
    assert env.schema["Inner"][..0] == [];
    SlotGetsParameter(env, [], "Inner", [PString("x")], w0, 0);
  }

  /** The owner's `child` field holds a nested model generated with the
      owner's full cursor, left intact by the owner's generation. */
  lemma OuterChildGetsFullCursor(random: nat -> string, w: World)
    requires WellFormed(w)
    ensures SnapshotEnv(random).Valid()
    ensures var env := SnapshotEnv(random);
      var b := Generate(env, [], "Outer", [PString("x")], w);
      && b.Ok?
      && exists wj: World | Extends(w, wj) ::
        NestedBuiltAt(env, [], ModelType("Inner"), [PString("x")], wj, b.value.world.objs[b.value.id].fields[0], b.value.world)
  {
    var env := SnapshotEnv(random);
    var x := [PString("x")];
    SnapshotEnvFacts(random);
    GenerateOk(env, [], "Outer", x, w);
    assert env.schema["Outer"][..0] == [];
    assert CursorAt(x, env.schema["Outer"], 0) == x;
    GenerateNested(env, [], "Outer", x, w, 0);
  }

  /** The owner's `name` field, its first slot, receives "x". */
  lemma OuterNameGetsParameter(random: nat -> string, w: World)
    requires WellFormed(w)
    ensures SnapshotEnv(random).Valid()
    ensures var b := Generate(SnapshotEnv(random), [], "Outer", [PString("x")], w);
      && b.Ok?
      && b.value.world.objs[b.value.id].fields[1] == Given(PString("x"))
  {
    var env := SnapshotEnv(random);
    var x := [PString("x")];
    SnapshotEnvFacts(random);
    GenerateOk(env, [], "Outer", x, w);
    SlotGetsParameter(env, [], "Outer", x, w, 1);
  }

  /** With the single parameter "x", the nested model consumes it on its own
      copy of the cursor, and the owner's cursor still holds it afterwards, so
      both `child.title` and `name` receive "x". */
  lemma NestedAndOwnerBindSameParameter(random: nat -> string, w: World)
    requires WellFormed(w)
    ensures SnapshotEnv(random).Valid()
    ensures var r := GenerateFresh(SnapshotEnv(random), "Outer", [PString("x")], w);
      && r.Ok?
      && var o := r.value.world.objs[r.value.id];
      && o.fields[1] == Given(PString("x"))
      && o.fields[0].Ref?
      && o.fields[0].id in r.value.world.objs
      && |r.value.world.objs[o.fields[0].id].fields| == 1
      && r.value.world.objs[o.fields[0].id].fields[0] == Given(PString("x"))
  {
    var env := SnapshotEnv(random);
    OuterChildGetsFullCursor(random, w);
    OuterNameGetsParameter(random, w);
    var b := Generate(env, [], "Outer", [PString("x")], w).value;
    var wj: World :| Extends(w, wj) &&
      NestedBuiltAt(env, [], ModelType("Inner"), [PString("x")], wj, b.world.objs[b.id].fields[0], b.world);
    InnerTakesParameter(random, wj);
  }

  /** A project that refers back to its own class through an `@Optional`
      field: generation never follows that field, so the schema is admitted. */
  function ParentEnv(random: nat -> string): Env {
    Env(map[ "Project" := [ Field("parent", {Optional}, ModelType("Project")),
                            Field("name", {Random}, StringType) ] ],
        map[ "Project" := 0 ],
        random)
  }

  /** The back-reference is skipped: generation succeeds, `parent` keeps its
      default and `name` gets a random string. */
  lemma OptionalBackReference(random: nat -> string, w: World)
    requires WellFormed(w)
    ensures ParentEnv(random).Valid()
    ensures var r := GenerateFresh(ParentEnv(random), "Project", [], w);
      && r.Ok?
      && |r.value.world.objs[r.value.id].fields| == 2
      && r.value.world.objs[r.value.id].fields[0] == Default
      && r.value.world.objs[r.value.id].fields[1].Str?
  {
    var env := ParentEnv(random);
    assert Closed(env.schema);
    GenerateOk(env, [], "Project", [], w);
    GenerateSpec(env, [], "Project", [], w);
    var b := Generate(env, [], "Project", [], w).value;
    var fs := env.schema["Project"];
    assert FieldOutcome([], w, b.world, fs, [], 0, b.world.objs[b.id].fields[0]);
    assert FieldOutcome([], w, b.world, fs, [], 1, b.world.objs[b.id].fields[1]);
  }

  /** An owner whose only slot is a `String` and whose nested model has a
      slot of another class. */
  function SurplusEnv(random: nat -> string): Env {
    Env(map[ "Outer" := [ Field("name", {Parameterizable}, StringType),
                          Field("child", {}, ModelType("Inner")) ],
             "Inner" := [ Field("count", {Parameterizable}, OtherType("Integer")) ] ],
        map[ "Outer" := 1, "Inner" := 0 ],
        random)
  }

  lemma SurplusEnvFacts(random: nat -> string)
    ensures SurplusEnv(random).Valid()
    ensures Closed(SurplusEnv(random).schema)
    ensures "Outer" in SurplusEnv(random).schema && "Inner" in SurplusEnv(random).schema
    ensures var fs := SurplusEnv(random).schema["Outer"];
      && |fs| == 2 && Consumes(fs[0], [PString("a")]) && Accepts(fs[0].kind, PString("a"))
      && !IsSlot(fs[1]) && fs[1].kind == ModelType("Inner")
      && Optional !in fs[1].tags && Random !in fs[1].tags
    ensures var fs := SurplusEnv(random).schema["Inner"];
      && |fs| == 1 && Consumes(fs[0], [PString("b")]) && !Accepts(fs[0].kind, PString("b"))
  {
  }

  /** The nested model rejects a string in its `Integer` slot. */
  lemma InnerRejectsString(random: nat -> string, w: World)
    requires WellFormed(w)
    ensures SurplusEnv(random).Valid()
    ensures Generate(SurplusEnv(random), [], "Inner", [PString("b")], w).Err?
  {
    var env := SurplusEnv(random);
    SurplusEnvFacts(random);
    var w0 := w.(next := w.next + 1);
    assert Resolve(env, [], "Inner", 0, [PString("b")], w0).Err?;
    assert Populate(env, [], "Inner", 0, [], [PString("b")], w0).Err?;
  }

  /** The owner's field `child` is generated with the owner's remaining cursor. */
  lemma OuterChildStep(random: nat -> string, rest: seq<Param>, w: World)
    requires WellFormed(w)
    ensures SurplusEnv(random).Valid()
    ensures var env := SurplusEnv(random);
      Resolve(env, [], "Outer", 1, rest, w).Ok? == Generate(env, [], "Inner", rest, w).Ok?
  {
    SurplusEnvFacts(random);
    NestedGetsCursorCopy(SurplusEnv(random), [], "Outer", 1, rest, w);
  }

  /** With the single parameter "a" the owner takes it, the nested model
      gets an empty cursor, and generation succeeds. */
  lemma OuterTakesOneParameter(random: nat -> string, w: World)
    requires WellFormed(w)
    ensures SurplusEnv(random).Valid()
    ensures Generate(SurplusEnv(random), [], "Outer", [PString("a")], w).Ok?
  {
    var env := SurplusEnv(random);
    SurplusEnvFacts(random);
    var w0 := w.(next := w.next + 1);
    var a := [PString("a")];
    var acc := [Given(PString("a"))];
    assert a[1..] == [];
    assert Resolve(env, [], "Outer", 0, a, w0) == Ok(Step(Given(PString("a")), [], w0));
    assert [] + acc == acc;
    assert ParamsFit(env.schema, []);
    PopulateOk(env, [], "Outer", 1, acc, [], w0);
    assert Populate(env, [], "Outer", 0, [], a, w0) == Populate(env, [], "Outer", 1, acc, [], w0);
  }

  /** With "a" and "b" the surplus "b" reaches the nested model on its copy
      of the cursor, where the `Integer` slot rejects it. */
  lemma OuterFailsOnSurplus(random: nat -> string, w: World)
    requires WellFormed(w)
    ensures SurplusEnv(random).Valid()
    ensures Generate(SurplusEnv(random), [], "Outer", [PString("a"), PString("b")], w).Err?
  {
    var env := SurplusEnv(random);
    SurplusEnvFacts(random);
    var w0 := w.(next := w.next + 1);
    var ab := [PString("a"), PString("b")];
    var acc := [Given(PString("a"))];
    assert ab[1..] == [PString("b")];
    assert Resolve(env, [], "Outer", 0, ab, w0) == Ok(Step(Given(PString("a")), [PString("b")], w0));
    assert [] + acc == acc;
    InnerRejectsString(random, w0);
    OuterChildStep(random, [PString("b")], w0);
    assert Populate(env, [], "Outer", 1, acc, [PString("b")], w0).Err?;
    assert Populate(env, [], "Outer", 0, [], ab, w0) == Populate(env, [], "Outer", 1, acc, [PString("b")], w0);
  }

  /** Surplus parameters are not always harmless: one parameter more than the
      owner's slots turns a successful generation into a failure, because the
      surplus reaches a nested model whose slot rejects it. */
  lemma SurplusParameterFailsNested(random: nat -> string, w: World)
    requires WellFormed(w)
    ensures SurplusEnv(random).Valid()
    ensures var fs := SurplusEnv(random).schema["Outer"];
      SlotCount(fs) == 1
    ensures Generate(SurplusEnv(random), [], "Outer", [PString("a")], w).Ok?
    ensures Generate(SurplusEnv(random), [], "Outer", [PString("a"), PString("b")], w).Err?
  {
    SurplusEnvFacts(random);
    OuterTakesOneParameter(random, w);
    OuterFailsOnSurplus(random, w);
  }
}
